=== FILE: README.md ===
# STEM atom-lattice analysis: a Dafny model of the numeric core

This project models the pure arithmetic and geometry of a tool that analyses
STEM (scanning transmission electron microscope) images of perovskite-like
lattices. It finds A- and B-site atom columns, measures how far each B site
sits from its ideal position, and summarises and draws the resulting
displacement field. The model covers these routines:

- **Lattice** (`core/lattice.py`):
  - `compute_b_displacements` matches each refined B position to its nearest ideal position and returns `refined − ideal` in input order.
  - `_estimate_separation_from_fft` estimates the real-space period from the Fourier magnitude. It works from a magnitude grid that is taken as given: it masks a disc around the DC component, selects the brightest cells, and averages `h/d` and `w/d` over their non-zero distances `d` from the centre.
  - The guard that rejects a missing or non-positive separation.
- **Preprocessing** (`core/preprocess.py`): `normalize`, the min-shift in `remove_background`, and the crop → background → smoothing → normalise sequence of `preprocess_image`.
- **Image I/O arithmetic** (`core/io_utils.py`): `crop_roi`, and the rescaling to 0–255 in `save_png`.
- **Visualisation helpers** (`core/viz_utils.py`):
  - the hue step of `angle_to_hsv_rgb`;
  - the bar length and label of `add_scale_bar`;
  - the convex-hull validity mask of `create_convex_hull_mask`;
  - the trimmed bounding box of `get_valid_data_bounds`.
- **Line profiles** (`core/line_profile.py`): `compute_line_profile`. It takes samples evenly spaced along a segment. Each sample is an inverse-distance-weighted average of the data within a search radius; when no datum is in range it falls back to the nearest one.
- **Statistics** (`core/stats.py`): `compute_statistics`, which returns the count, the magnitude summaries, the mean direction, the circular spread and the nanometre variants.

Numbers are exact `real`s. The library functions the code calls are passed in
as function-typed parameters: `sqrt`, `arctan2`, `cos`, `sin`, `log` and
`gaussian_filter`. A predicate states the one fact each proof relies on. For
example, `IsSqrt(sqrt)` says `sqrt` returns the non-negative square root. The
decade exponent `floor(log10(target))` of the scale bar is an input, pinned
down by `Pow10(e) <= target < Pow10(e + 1)`.

Modules follow the source files:

| module | contents |
|---|---|
| `Base` | `Option` and `Pi` |
| `Reals` | sums, means, extrema, weighted means, `linspace`, square roots |
| `Geometry` | points, squared distances, nearest index, cross products, centroids |
| `Sorting` | a stable insertion sort and `argsort` |
| `Grid` | 2-D images, extrema, cropping |
| `Lattice`, `Preprocess`, `IoUtils`, `VizUtils`, `LineProfile`, `Stats` | one module per source file |

## Model

| member | source | states |
|---|---|---|
| Geometry.NearestIndex | core/lattice.py:116-117 | the index returned is a nearest candidate: no candidate is closer, and every earlier candidate is strictly farther (ties go to the lowest index) |
| Lattice.Offset | core/lattice.py:116-119 | subtracting the displacement from the refined point gives back one of the ideal points, and the displacement is no longer than the distance to any ideal point |
| Lattice.ComputeBDisplacements | core/lattice.py:109-120 | `dx` and `dy` have one entry per refined point, in input order; entry j leads back to an ideal point, and it is no longer than the distance from refined point j to any ideal point |
| Lattice.CoincidentZero | core/lattice.py:116-119 | a refined point that coincides with an ideal point gets displacement (0, 0) |
| Lattice.RecoversUniqueMatch | core/lattice.py:116-119 | when one ideal point is strictly nearest, the displacement is exactly the refined point minus that ideal point |
| Lattice.DisplacementsConcat | core/lattice.py:117-120 | the displacements of a concatenation are the concatenated displacements, so each entry depends only on its own refined point |
| Lattice.MaskDc | core/lattice.py:18-24 | a cell becomes 0 exactly when its squared distance from `(h//2, w//2)` is at most `min_radius²`; every other cell keeps its magnitude |
| Lattice.MaskDcByCoordinates | core/lattice.py:18-24 | in grid coordinates: cell `(y, x)`, stored at `y·w + x`, is 0 when `(y − h//2)² + (x − w//2)² ≤ min_radius²` and keeps `mag[y·w + x]` otherwise |
| Lattice.MaskDcClearsCentre | core/lattice.py:18-24 | the centre cell `(h//2, w//2)` is always zeroed |
| Lattice.Selected | core/lattice.py:26 | `num_peaks` cell indices are selected, and all of them when `num_peaks` is 0, because the slice `[-0:]` takes the whole array |
| Lattice.SelectionPartition | core/lattice.py:26 | the selected and unselected cells together are every cell exactly once, and no unselected masked magnitude exceeds a selected one |
| Lattice.Positives | core/lattice.py:29 | each positive distance is kept as many times as it occurs and nothing else is kept, so the kept distances are exactly the positive ones, and none are kept exactly when none are positive |
| Lattice.PeakDistances | core/lattice.py:26-31 | the distances of the selected cells from the centre, with each positive one kept as often as it occurs and the zeros dropped; all are positive |
| Lattice.NoPeaksIff | core/lattice.py:27-31 | no distance survives exactly when every selected cell is the centre |
| Lattice.EstimateSeparation | core/lattice.py:11-38 | the result is `None` exactly when every selected cell is the centre; otherwise it is positive and equals `(h + w)/2` times the mean of `1/d` over the kept distances d |
| Lattice.Periods | core/lattice.py:33-37 | each distance contributes two periods |
| Lattice.PeriodsAt | core/lattice.py:34-37 | distance i contributes `h/d` at position `2i` and `w/d` at `2i + 1`, in the loop's order |
| Lattice.PeriodsSumReciprocals | core/lattice.py:34-38 | the periods add up to `h + w` times the sum of the reciprocal distances |
| Lattice.MeanPeriod | core/lattice.py:34-38 | the mean period is `(h + w)/2` times the mean reciprocal distance |
| Lattice.SeparationBounds | core/lattice.py:26-38 | the estimate lies between `(h + w)/(2·max d)` and `(h + w)/(2·min d)`, the periods of the farthest and of the nearest peak |
| Lattice.PeriodsPositive | core/lattice.py:33-37 | every period `h/d` and `w/d` is positive |
| Lattice.UniformPeaksPeriod | core/lattice.py:34-38 | when every peak lies at the same distance d, the mean period is `(h + w) / (2d)` |
| Lattice.ResolveSeparation | core/lattice.py:55-59 | the given separation is used when present, otherwise the estimate, which is then returned unchanged; the call fails exactly when the value chosen is missing or not positive |
| Sorting.Argsort | core/lattice.py:26 | the indices are a permutation of `0..n-1` and list the values in non-decreasing order |
| Sorting.SortBy | core/stats.py:39 | the result is sorted and is a permutation of the input |
| Preprocess.Scale | core/preprocess.py:12-13 | the division by the new maximum maps `[lo, lo+span]` into [0, 1], with the low end at 0 and the high end at 1 |
| Preprocess.ScaleMonotone | core/preprocess.py:12-13 | the division preserves order, both strict and non-strict |
| Preprocess.Normalize | core/preprocess.py:7-14 | the shape is kept and every value is in [0, 1]; the minimum becomes 0 and, for a non-constant image, the maximum becomes 1; a constant image becomes all zeros; each pixel is its value's position between the old extrema |
| Preprocess.NormalizeMonotone | core/preprocess.py:10-14 | normalising keeps the order between any two pixels, and keeps strict order when the image is not constant |
| Preprocess.NormalizeIdempotent | core/preprocess.py:7-14 | normalising twice is normalising once |
| Preprocess.NormalizeFixes | core/preprocess.py:10-14 | an image whose minimum is 0 and whose maximum is 0 or 1 is left unchanged |
| Preprocess.RemoveBackground | core/preprocess.py:17-22 | for any blurred image of the same shape, the output keeps the shape, has minimum 0 and no negative pixel, and differs from `image − blurred` only by a constant |
| Preprocess.Region | core/preprocess.py:35-37 | with a region of interest the image is cropped to it, otherwise it is unchanged |
| Preprocess.Background | core/preprocess.py:38-39 | the background step keeps the shape, and is skipped when `background_sigma` is falsy |
| Preprocess.Smooth | core/preprocess.py:40-41 | smoothing keeps the shape, and is skipped when `gaussian_sigma` is not positive |
| Preprocess.PreprocessImage | core/preprocess.py:25-42 | the output has the region's shape, lies in [0, 1] and has minimum 0 |
| Preprocess.PreprocessWithoutFilters | core/preprocess.py:34-42 | with both filters off the result is the normalised image, or the normalised crop |
| Preprocess.PreprocessBackgroundOnly | core/preprocess.py:34-42 | with only background removal on, the result is the normalised background-corrected region |
| Preprocess.PreprocessSmoothOnly | core/preprocess.py:34-42 | with only smoothing on, the result is the normalised blurred region |
| Preprocess.PreprocessBothFilters | core/preprocess.py:34-42 | with both filters on, the background is removed first, the corrected region is then blurred, and the blurred image is normalised |
| Grid.Crop | core/io_utils.py:26-28 | the crop has `y2−y1` rows of `x2−x1` columns, and pixel (i, j) is pixel `(y1+i, x1+j)` of the image |
| IoUtils.CropWhole | core/io_utils.py:26-28 | cropping to `(0, 0, W, H)` returns the image unchanged |
| IoUtils.CropOfCrop | core/io_utils.py:26-28 | a crop of a crop is a single crop whose corners are offset by the outer region's top-left corner |
| IoUtils.PngScale | core/io_utils.py:36-41 | the pixels written are 255 times the normalised image, so they lie in [0, 255]; the minimum maps to 0, and a constant image maps to all zeros |
| VizUtils.Hue | core/viz_utils.py:15-27 | the hue is in [0, 1]; within [−π, π] it is `(a+π)/(2π)` exactly, and outside it saturates at 0 or 1 |
| VizUtils.HueMonotone | core/viz_utils.py:26-27 | a larger angle never gets a smaller hue |
| VizUtils.WheelHue | core/viz_utils.py:175 | the legend wheel draws polar angle θ in [0, 2π] with the hue of `θ − π`, which is the fraction `θ/(2π)` of a full turn |
| VizUtils.HueOpposite | core/viz_utils.py:26-27 | opposite directions in [−π, 0] and [0, π] are half the colour wheel apart |
| VizUtils.FirstReaching | core/viz_utils.py:101-104 | the loop stops at the first step whose multiple reaches the goal, and finds none exactly when no step does |
| VizUtils.NiceLength | core/viz_utils.py:99-106 | the chosen length is 1, 2, 5 or 10 times the magnitude and lies in `[0.8·target, 2·target)` |
| VizUtils.NiceLengthMinimal | core/viz_utils.py:101-104 | no nice length that reaches `0.8·target` is smaller than the one chosen |
| VizUtils.AutoBarLength | core/viz_utils.py:97-106 | the automatic length is 1, 2, 5 or 10 times the decade `10^⌊log10 target⌋` and lies in `[0.8·target, 2·target)` |
| VizUtils.AutoBarLengthScales | core/viz_utils.py:97-106 | scaling the target by 10 scales the automatic bar length by 10 |
| VizUtils.BarLabel | core/viz_utils.py:137-140 | the label reads back as the bar length; it is in pm exactly when the length is below 1 nm, and then shows less than 1000 |
| VizUtils.MakeScaleBar | core/viz_utils.py:94-108 | a given length is kept; an automatic bar is the round length `AutoBarLength` picks for 15% of the width, so it is 1, 2, 5 or 10 times the decade of that target and 12–30% of the image width; the label reads back as the length |
| VizUtils.BarPixels | core/viz_utils.py:108 | the pixel length times `nm_per_pixel` is the length in nm |
| VizUtils.ShrinkBy | core/viz_utils.py:222-224 | every vertex moves to `c + s·(v − c)`, where c is the vertex centroid |
| VizUtils.Shrink | core/viz_utils.py:222-224 | a positive margin m shrinks by `1 − m`; any other margin leaves the hull unchanged; either way the vertex centroid stays where it was |
| VizUtils.ShrinkKeepsCentroid | core/viz_utils.py:223-224 | shrinking toward the vertex centroid by any factor leaves the vertex centroid in place |
| VizUtils.AllTrue | core/viz_utils.py:209-211 | the fallback mask has the grid's shape and is True everywhere |
| VizUtils.ConvexHullMask | core/viz_utils.py:185-242 | the mask has the grid's shape; it is all True with fewer than 4 points or when hull construction fails; otherwise entry (r, c) is True exactly when the linspace grid point lies in the shrunk hull |
| Reals.Linspace | core/viz_utils.py:229-230 | n samples that start at the low end, end at the high end and stay between them |
| Reals.LinspaceStep | core/viz_utils.py:229-230 | consecutive samples are `(hi−lo)/(n−1)` apart |
| Geometry.CentroidInside | core/viz_utils.py:223 | the vertex centroid of a convex polygon lies inside it |
| VizUtils.ShrinkNested | core/viz_utils.py:222-224 | a point inside the hull shrunk by s1 is inside the hull shrunk by any larger factor s2 |
| VizUtils.MaskNested | core/viz_utils.py:222-241 | an entry True for a margin stays True for every smaller margin |
| VizUtils.FullShrinkIsPermissive | core/viz_utils.py:222-241 | with a margin of exactly 1 the hull shrinks to its centroid, which the inside test treats as containing every point, so every entry of the mask is True |
| VizUtils.CentroidKept | core/viz_utils.py:222-241 | a grid point at the hull's vertex centroid is inside the mask for any margin |
| VizUtils.DataPointsKept | core/viz_utils.py:213-241 | without a shrink, every grid point that is a data point is inside the mask |
| VizUtils.ValidDataBounds | core/viz_utils.py:245-273 | the trimmed box keeps the centre of the bounding box, and its width and height are `1 − 2·margin` times the data's x and y ranges; with no margin it is the tight bounding box; for margins up to 0.5 each low end is at most its high end |
| VizUtils.TrimShape | core/viz_utils.py:262-273 | trimming keeps the midpoint and scales the length by `1 − 2m` |
| VizUtils.BoundingBoxTight | core/viz_utils.py:259-260 | the per-axis extrema enclose every point, and each is reached by some point |
| VizUtils.BoundsNested | core/viz_utils.py:259-273 | a larger margin gives a box nested inside the box of a smaller margin |
| LineProfile.LineLength | core/line_profile.py:41-42 | the length is non-negative, its square is the squared distance between the endpoints, and it is 0 exactly when they coincide |
| LineProfile.Radius | core/line_profile.py:44-45 | a given radius is used; otherwise the radius is a tenth of the line length |
| LineProfile.Neighbours | core/line_profile.py:58 | exactly the points within the radius (boundary included) are found, each once, in increasing index order |
| LineProfile.Weights | core/line_profile.py:67-69 | one weight per neighbour, each `1/(d + 1e-10)` for the neighbour's distance d from the sample position, and so positive |
| LineProfile.InverseWeight | core/line_profile.py:69 | the weight of distance d is positive and is the reciprocal of `d + 1e-10` |
| LineProfile.NearerWeighsMore | core/line_profile.py:69 | a strictly nearer neighbour gets a strictly larger weight |
| LineProfile.WeightsOrder | core/line_profile.py:67-69 | of two neighbours of one sample, the nearer one has the larger weight |
| LineProfile.SampleAt | core/line_profile.py:56-70 | with neighbours, the sample times the sum of the weights equals the weighted sum of the neighbour values, and it lies between the smallest and largest neighbour value; with none, it is the value of a point nearest the sample position |
| LineProfile.EquidistantSample | core/line_profile.py:64-70 | when every neighbour is at the same distance, the sample is the plain mean of the neighbour values |
| Reals.WeightedMean | core/line_profile.py:70 | with positive weights, the weighted average times the sum of the weights is the weighted sum, and the average lies between the smallest and largest value |
| Reals.EqualWeightsMean | core/line_profile.py:70 | with all weights equal, the weighted average is the plain mean |
| LineProfile.Distances | core/line_profile.py:48-50 | n distances, from 0 to the line length, non-decreasing, consecutive ones `length/(n − 1)` apart |
| LineProfile.Positions | core/line_profile.py:48-49 | n positions, the first at `start` and the last at `end`, consecutive ones `(end − start)/(n − 1)` apart in x and in y |
| LineProfile.ComputeLineProfile | core/line_profile.py:13-72 | all three arrays have `num_samples` entries; positions run from start to end in equal steps; distances run from 0 to the line length in equal steps; each sample is taken at its position with the resolved radius |
| LineProfile.PositionsAtDistances | core/line_profile.py:48-50 | each position lies at its reported distance from `start` |
| LineProfile.ConstantProfile | core/line_profile.py:56-70 | when all values equal c, every sample equals c |
| LineProfile.NegativeRadiusIsNearest | core/line_profile.py:58-62 | with a negative radius no point is in range, so each sample is the value at the nearest point |
| Stats.Magnitudes | core/stats.py:29 | each magnitude is non-negative, its square is `dx² + dy²`, and it is 0 exactly when both components are 0 |
| Stats.Median | core/stats.py:39 | the median lies between the minimum and the maximum |
| Stats.MedianPermutation | core/stats.py:39 | the median does not depend on the order of the data |
| Stats.MedianOfSorted | core/stats.py:39 | for sorted data the median is the middle element when the length is odd, and the mean of the two middle elements when it is even |
| Stats.Std | core/stats.py:36 | the population standard deviation is non-negative, and its square is the mean squared deviation |
| Stats.StdZero | core/stats.py:36-38 | the standard deviation is 0 exactly when all the data are equal |
| Stats.Resultant | core/stats.py:41 | the resultant length R is non-negative and `R²` is the squared length of the mean of the unit vectors `(cos a, sin a)` |
| Stats.CircularStd | core/stats.py:41 | the circular spread is undefined (infinite in numpy) exactly when the mean unit vector of the angles is zero |
| Stats.AlignedCircularStd | core/stats.py:41 | angles that all point the same way have circular spread 0 |
| Stats.ScaleSummary | core/stats.py:44-48 | the nm values exist exactly when a scale is given, and each is its pixel value times the scale |
| Stats.ComputeStatistics | core/stats.py:13-50 | the count is the number of displacements; the minimum and maximum are magnitudes of actual displacements, and every displacement's squared length lies between their squares; `0 ≤ min ≤ mean ≤ max` and `min ≤ median ≤ max`; the mean and the median are those of the magnitudes, and the std is non-negative with square the magnitudes' mean squared deviation; the mean angle is the degrees of `atan2` of the mean dy and the mean dx; the circular spread is `CircularStd` of the per-displacement angles, undefined exactly when their mean unit vector is zero; the nm variants exist exactly when a scale is given and scale mean, std, min and max |
| Stats.ZeroDisplacements | core/stats.py:29-41 | all-zero displacements give zero mean, std, min, max and median, and, with well-behaved trigonometric functions, a circular spread of 0 |
| Stats.MeanDirection | core/stats.py:40 | the mean direction depends only on the mean displacement |
| Stats.UniformMagnitudes | core/stats.py:36-38 | the magnitude std is 0 exactly when the minimum equals the maximum |

## Left out

- The Fourier transform (`core/lattice.py:15-16`) is not modelled: the magnitude grid is an input, flattened in row-major order.
- `gaussian_filter` is not modelled. It is a parameter, and the model assumes only that it keeps the image's shape.
- scipy's `ConvexHull` and `Delaunay` are not modelled:
  - The hull is an input: a counter-clockwise list of vertices drawn from the points and enclosing them, or `None` when construction fails.
  - The Delaunay `find_simplex(...) >= 0` test becomes a test that the point is on or left of every edge. For a convex polygon, that is the same thing.
- matplotlib's `hsv_to_rgb`, colour maps and all drawing are not modelled; only the hue and the scale-bar arithmetic are.
- The bar position and the label's `.0f` rounding are also not modelled.
- `build_atom_lattice` and `build_sublattices` are not modelled, because peak finding and refinement happen inside atomap and hyperspy. Only their separation guard (`ResolveSeparation`) is modelled.
- `core/metrics.py`, `core/pipeline.py` and `core/viz.py` are not part of this model. The UI, the scripts and `config.py` are also excluded.
- File reading and writing are not modelled: `load_image`, `save_csv`, the file write in `save_png`, and the `save_*` functions and histograms in `core/stats.py` and `core/line_profile.py`.
- The KD-trees are not modelled. `cKDTree` is replaced by a linear search over all points, which finds the same neighbours. The tie orders of `cKDTree.query` and `np.argpartition` are unspecified. The model's nearest-point search breaks ties by lowest index. The peak selection sorts the indices stably by value and takes the last k, so among equal values at the cut the higher indices are selected.
- Floating point is not modelled: NaN handling (`nanmin`/`nanmax`), rounding and overflow are outside the exact-real model, and so is the `uint8` cast in `save_png`.
- Python's clamping and negative-index wrap in slices are not modelled; regions of interest are required to be in bounds.
- `log10` is not computed. The scale bar's decade exponent is an input that satisfies `10^e <= target < 10^(e+1)`.
- Stats.CircularStd: when the mean unit vector is zero, numpy returns infinity and the model returns `None`. The contract states only when the spread is undefined. Its value, √(−2 ln R) in degrees, is not stated, because the bound `R ≤ 1` that makes the logarithm's argument valid is not proved. The one value proved is 0 for aligned angles (`AlignedCircularStd`).
- Stats.ComputeStatistics: the mean angle is stated as the degrees of `atan2` of the mean displacement, but is not related to the per-point angles beyond `MeanDirection`, because `atan2` is an uninterpreted input. The nm values are stated through `Prod`, the product of the pixel value and the scale.
- VizUtils.ValidDataBounds: requires at least one point. With none, `points.min(axis=0)` raises a ValueError (`core/viz_utils.py:259`), which is not modelled.
- VizUtils.MakeScaleBar: requires `nm_per_pixel != 0`; the source would divide by zero there.
- VizUtils.ConvexHullMask: the triangulation failure after a successful hull (`core/viz_utils.py:238-239`) is modelled only in the `None` hull case, where the mask is all True. The model has no other failing triangulation. At a margin of 1 the shrunk hull collapses to its centroid, where scipy's `Delaunay` raises and the source returns the all-True mask. The model gives the same mask in its `Some` branch, because every cross product with the collapsed hull is 0 (`FullShrinkIsPermissive`).
- LineProfile.ComputeLineProfile: requires at least one data point when samples are asked for, because the source's nearest-neighbour fallback needs one.
- Lattice.EstimateSeparation: requires `num_peaks <= h·w`. For larger values `argpartition` raises an error, which is not modelled.
- Lattice.ComputeBDisplacements: requires at least one ideal point. With none, the source's KD-tree query returns an out-of-range index and the lookup raises an IndexError (`core/lattice.py:116-118`), which is not modelled.
- Stats.ComputeStatistics: requires at least one displacement. With none, `np.min` raises a ValueError (`core/stats.py:37`), which is not modelled.
- Preprocess.Normalize: requires a non-empty image. With none, `image.min()` raises (`core/preprocess.py:10`), which is not modelled.
- IoUtils.PngScale: requires a non-empty image. With none, `np.nanmin` raises (`core/io_utils.py:36`), which is not modelled.
- VizUtils.ConvexHullMask: a hull must enclose a region of positive area. Collinear points, for which scipy's `ConvexHull` raises, are covered by the `None` hull case.

=== FILE: base.dfy ===
/** Vocabulary shared by every module: optional values and the value of pi
    the analysis code uses.

    The analysis code takes square roots, arc-tangents, logarithms and
    exponentials from numpy. The model has no such functions over `real`, so
    each member that needs one receives it as a parameter, constrained by a
    predicate such as `Reals.IsSqrt`. */
module Base {

  /** A value that may be absent: Python's `Optional[...]`, with `None` for `None`. */
  datatype Option<T> = None | Some(value: T)

  /** The literal value of `np.pi`. */
  const Pi: real := 3.141592653589793
}

=== FILE: geometry.dfy ===
/** Points in pixel space and the plane geometry the analysis code takes from
    scipy: the single nearest neighbour a `cKDTree` query returns, and the
    inside test of a convex polygon. */
module Geometry {
  import opened Reals

  /** An `(x, y)` position in pixels: `x` is the column, `y` the row. */
  datatype Point = Point(x: real, y: real)

  /** The squared Euclidean distance. Where the code only ranks distances,
      the model compares these instead of their square roots. */
  function SqDist(p: Point, q: Point): (d: real)
    ensures 0.0 <= d
  {
    Sq(p.x - q.x) + Sq(p.y - q.y)
  }

  /** Squared distance zero means the points coincide. */
  lemma SqDistZero(p: Point, q: Point)
    ensures SqDist(p, q) == 0.0 <==> p == q
  {
  }

  /** The nearest of the first `n` candidates to `p`; among equally near
      candidates the lowest index wins. */
  function NearestAmong(p: Point, candidates: seq<Point>, n: nat): (k: nat)
    requires 0 < n <= |candidates|
    ensures k < n
    ensures forall j :: 0 <= j < n ==> SqDist(p, candidates[k]) <= SqDist(p, candidates[j])
    ensures forall j :: 0 <= j < k ==> SqDist(p, candidates[k]) < SqDist(p, candidates[j])
  {
    if n == 1 then 0
    else
      var k := NearestAmong(p, candidates, n - 1);
      if SqDist(p, candidates[n - 1]) < SqDist(p, candidates[k]) then n - 1 else k
  }

  /** The index a `cKDTree.query(p, k=1)` over `candidates` returns: a true
      nearest neighbour, the first one among ties. */
  function NearestIndex(p: Point, candidates: seq<Point>): (k: nat)
    requires |candidates| > 0
    ensures k < |candidates|
    ensures forall j :: 0 <= j < |candidates| ==> SqDist(p, candidates[k]) <= SqDist(p, candidates[j])
    ensures forall j :: 0 <= j < k ==> SqDist(p, candidates[k]) < SqDist(p, candidates[j])
  {
    NearestAmong(p, candidates, |candidates|)
  }

  /** `(a - o) x (b - o)`, the z component of the cross product: positive
      when `b` lies to the left of the directed line from `o` through `a`. */
  function Cross(o: Point, a: Point, b: Point): real {
    (a.x - o.x) * (b.y - o.y) - (a.y - o.y) * (b.x - o.x)
  }

  /** The index after `i` around a closed polygon of `n` vertices. */
  function Next(i: nat, n: nat): nat
    requires i < n
  {
    if i + 1 == n then 0 else i + 1
  }

  /** `p` lies in the closed region bounded by the counter-clockwise vertex
      list `poly`: on or to the left of every edge. For a convex polygon this
      is the region the triangles of its Delaunay triangulation cover. */
  predicate InConvexPolygon(poly: seq<Point>, p: Point) {
    forall i :: 0 <= i < |poly| ==> Cross(poly[i], poly[Next(i, |poly|)], p) >= 0.0
  }

  /** `poly` is a convex polygon listed counter-clockwise, as
      `ConvexHull(points).vertices` lists it: every vertex lies on or to the
      left of every edge. */
  ghost predicate Convex(poly: seq<Point>) {
    forall i, j :: 0 <= i < |poly| && 0 <= j < |poly| ==>
      Cross(poly[i], poly[Next(i, |poly|)], poly[j]) >= 0.0
  }

  function Xs(ps: seq<Point>): (r: seq<real>)
    ensures |r| == |ps| && forall i :: 0 <= i < |ps| ==> r[i] == ps[i].x
  {
    seq(|ps|, i requires 0 <= i < |ps| => ps[i].x)
  }

  function Ys(ps: seq<Point>): (r: seq<real>)
    ensures |r| == |ps| && forall i :: 0 <= i < |ps| ==> r[i] == ps[i].y
  {
    seq(|ps|, i requires 0 <= i < |ps| => ps[i].y)
  }

  /** The mean of the vertices, `np.mean(points, axis=0)`. */
  function Centroid(ps: seq<Point>): Point
    requires |ps| > 0
  {
    Point(Mean(Xs(ps)), Mean(Ys(ps)))
  }

  /** The cross products of one directed edge `a -> b` with every point of `ps`. */
  function CrossAll(a: Point, b: Point, ps: seq<Point>): (r: seq<real>)
    ensures |r| == |ps| && forall j :: 0 <= j < |ps| ==> r[j] == Cross(a, b, ps[j])
  {
    seq(|ps|, j requires 0 <= j < |ps| => Cross(a, b, ps[j]))
  }

  /** `Cross(a, b, q)` summed over `n` points `q` whose coordinates sum to
      `(sx, sy)`. */
  function EdgeSum(a: Point, b: Point, sx: real, sy: real, n: real): real {
    (b.x - a.x) * (sy - n * a.y) - (b.y - a.y) * (sx - n * a.x)
  }

  /** `Cross(a, b, q)` is affine in `q`, so it sums term by term. */
  lemma {:induction false} SumCrossAll(a: Point, b: Point, ps: seq<Point>)
    ensures Sum(CrossAll(a, b, ps)) == EdgeSum(a, b, Sum(Xs(ps)), Sum(Ys(ps)), |ps| as real)
  {
    if |ps| > 0 {
      SumCrossAll(a, b, ps[1..]);
      assert CrossAll(a, b, ps)[1..] == CrossAll(a, b, ps[1..]);
      assert Xs(ps)[1..] == Xs(ps[1..]);
      assert Ys(ps)[1..] == Ys(ps[1..]);
      CrossStep(a, b, ps[0], Sum(Xs(ps[1..])), Sum(Ys(ps[1..])), (|ps| - 1) as real);
    }
  }

  lemma CrossStep(a: Point, b: Point, q: Point, sx: real, sy: real, n: real)
    ensures Cross(a, b, q) + EdgeSum(a, b, sx, sy, n) == EdgeSum(a, b, q.x + sx, q.y + sy, n + 1.0)
  {
  }

  /** The cross product with the centroid is the mean of the cross products
      with the vertices. */
  lemma CrossCentroid(a: Point, b: Point, ps: seq<Point>)
    requires |ps| > 0
    ensures Cross(a, b, Centroid(ps)) == Mean(CrossAll(a, b, ps))
  {
    var n := |ps| as real;
    var k := Cross(a, b, Centroid(ps));
    var e := EdgeSum(a, b, Sum(Xs(ps)), Sum(Ys(ps)), n);
    assert n * k == e by {
      MeanTimesCount(Xs(ps));
      MeanTimesCount(Ys(ps));
      CrossTimes(a, b, Centroid(ps), Sum(Xs(ps)), Sum(Ys(ps)), n);
    }
    assert Sum(CrossAll(a, b, ps)) == e by {
      SumCrossAll(a, b, ps);
    }
    QuotientOfProduct(k, n, Sum(CrossAll(a, b, ps)));
  }

  lemma CrossTimes(a: Point, b: Point, c: Point, sx: real, sy: real, n: real)
    requires c.x * n == sx && c.y * n == sy
    ensures n * Cross(a, b, c) == EdgeSum(a, b, sx, sy, n)
  {
  }

  /** The vertex centroid of a convex polygon lies inside it. */
  lemma CentroidInside(poly: seq<Point>)
    requires |poly| > 0
    requires Convex(poly)
    ensures InConvexPolygon(poly, Centroid(poly))
  {
    forall i | 0 <= i < |poly|
      ensures Cross(poly[i], poly[Next(i, |poly|)], Centroid(poly)) >= 0.0
    {
      var a, b := poly[i], poly[Next(i, |poly|)];
      CrossCentroid(a, b, poly);
      MeanBounds(CrossAll(a, b, poly), 0.0, MaxOf(CrossAll(a, b, poly)));
    }
  }
}

=== FILE: grid.dfy ===
/** Two-dimensional images as rows of pixel values, the shape of every numpy
    image array the analysis code handles, with the whole-image reductions
    (`img.min()`, `img.max()`) and the region-of-interest slice
    `image[y1:y2, x1:x2]`. */
module Grid {
  import opened Reals

  /** An image indexed `img[row][column]`, as a 2-D numpy array is. */
  type Image = seq<seq<real>>

  /** `img` has `rows` rows of `cols` values each. */
  predicate IsShape(img: Image, rows: nat, cols: nat) {
    |img| == rows && forall i :: 0 <= i < rows ==> |img[i]| == cols
  }

  /** The number of columns of a rectangular image. */
  function Cols(img: Image): nat {
    if |img| == 0 then 0 else |img[0]|
  }

  /** Every row has the same length, as in a 2-D array. */
  predicate Rect(img: Image) {
    IsShape(img, |img|, Cols(img))
  }

  /** A rectangular image with at least one pixel: the images on which
      numpy's `min` and `max` are defined. */
  predicate NonEmpty(img: Image) {
    Rect(img) && |img| > 0 && Cols(img) > 0
  }

  predicate SameShape(a: Image, b: Image) {
    |a| == |b| && forall i :: 0 <= i < |a| ==> |a[i]| == |b[i]|
  }

  /** An image of the same shape as a non-empty one is non-empty. */
  lemma SameShapeNonEmpty(a: Image, b: Image)
    requires NonEmpty(b) && SameShape(a, b)
    ensures NonEmpty(a)
  {
    assert Cols(a) == Cols(b);
  }

  /** Two images of one shape that agree on every pixel are equal. */
  lemma PixelwiseEqual(a: Image, b: Image)
    requires SameShape(a, b)
    requires forall i, j :: 0 <= i < |a| && 0 <= j < |a[i]| ==> a[i][j] == b[i][j]
    ensures a == b
  {
    forall i | 0 <= i < |a|
      ensures a[i] == b[i]
    {
      assert |a[i]| == |b[i]|;
    }
  }

  /** `img.min()`: a pixel value no larger than any other. */
  function GridMin(img: Image): (m: real)
    requires NonEmpty(img)
    ensures exists i, j :: 0 <= i < |img| && 0 <= j < |img[i]| && img[i][j] == m
    ensures forall i, j :: 0 <= i < |img| && 0 <= j < |img[i]| ==> m <= img[i][j]
  {
    var mins := seq(|img|, i requires 0 <= i < |img| => MinOf(img[i]));
    var m := MinOf(mins);
    assert m in mins;
    var i :| 0 <= i < |img| && mins[i] == m;
    assert MinOf(img[i]) in img[i];
    assert forall i, j :: 0 <= i < |img| && 0 <= j < |img[i]| ==> mins[i] <= img[i][j];
    m
  }

  /** `img.max()`: a pixel value no smaller than any other. */
  function GridMax(img: Image): (m: real)
    requires NonEmpty(img)
    ensures exists i, j :: 0 <= i < |img| && 0 <= j < |img[i]| && img[i][j] == m
    ensures forall i, j :: 0 <= i < |img| && 0 <= j < |img[i]| ==> img[i][j] <= m
  {
    var maxs := seq(|img|, i requires 0 <= i < |img| => MaxOf(img[i]));
    var m := MaxOf(maxs);
    assert m in maxs;
    var i :| 0 <= i < |img| && maxs[i] == m;
    assert MaxOf(img[i]) in img[i];
    assert forall i, j :: 0 <= i < |img| && 0 <= j < |img[i]| ==> img[i][j] <= maxs[i];
    m
  }

  /** A pixel value that bounds every pixel from below is the minimum. */
  lemma MinUnique(img: Image, m: real, i0: nat, j0: nat)
    requires NonEmpty(img)
    requires i0 < |img| && j0 < |img[i0]| && img[i0][j0] == m
    requires forall i, j :: 0 <= i < |img| && 0 <= j < |img[i]| ==> m <= img[i][j]
    ensures GridMin(img) == m
  {
  }

  /** A pixel value that bounds every pixel from above is the maximum. */
  lemma MaxUnique(img: Image, m: real, i0: nat, j0: nat)
    requires NonEmpty(img)
    requires i0 < |img| && j0 < |img[i0]| && img[i0][j0] == m
    requires forall i, j :: 0 <= i < |img| && 0 <= j < |img[i]| ==> img[i][j] <= m
    ensures GridMax(img) == m
  {
  }

  /** Applies `f` to every pixel, as numpy's element-wise arithmetic does. */
  function Pointwise(img: Image, f: real -> real): (r: Image)
    ensures SameShape(r, img)
    ensures forall i, j :: 0 <= i < |img| && 0 <= j < |img[i]| ==> r[i][j] == f(img[i][j])
  {
    seq(|img|, i requires 0 <= i < |img| =>
      seq(|img[i]|, j requires 0 <= j < |img[i]| => f(img[i][j])))
  }

  /** A region of interest `(x1, y1, x2, y2)`: columns `x1..x2 - 1` and
      rows `y1..y2 - 1`. */
  datatype Roi = Roi(x1: int, y1: int, x2: int, y2: int)

  /** The region lies within an image of `rows` rows and `cols` columns and
      its corners are in order, so slicing neither clamps nor wraps. */
  predicate InBounds(roi: Roi, rows: nat, cols: nat) {
    0 <= roi.x1 <= roi.x2 <= cols && 0 <= roi.y1 <= roi.y2 <= rows
  }

  /** `image[y1:y2, x1:x2]` for an in-bounds region: the region gives `x`
      first, but rows are indexed by `y`. */
  function Crop(img: Image, roi: Roi): (r: Image)
    requires Rect(img) && InBounds(roi, |img|, Cols(img))
    ensures IsShape(r, roi.y2 - roi.y1, roi.x2 - roi.x1)
    ensures forall i, j :: 0 <= i < |r| && 0 <= j < |r[i]| ==> r[i][j] == img[roi.y1 + i][roi.x1 + j]
  {
    seq(roi.y2 - roi.y1, i requires 0 <= i < roi.y2 - roi.y1 => img[roi.y1 + i][roi.x1..roi.x2])
  }
}

=== FILE: io_utils.dfy ===
/** The array arithmetic of the image input/output helpers: the
    region-of-interest crop `crop_roi` (modelled by `Grid.Crop`) and the
    rescaling to 0-255 that `save_png` applies before casting to 8-bit
    pixels. Reading and writing files is not modelled. */
module IoUtils {
  import opened Reals
  import opened Grid
  import opened Preprocess

  /** Cropping to the whole image gives the image back. */
  lemma CropWhole(img: Image)
    requires Rect(img)
    ensures Crop(img, Roi(0, 0, Cols(img), |img|)) == img
  {
    var r := Crop(img, Roi(0, 0, Cols(img), |img|));
    forall i | 0 <= i < |img|
      ensures r[i] == img[i]
    {
      assert |r[i]| == |img[i]|;
    }
  }

  /** Cropping a crop is one crop whose corners are offset by the first
      region's top-left corner. */
  lemma CropOfCrop(img: Image, a: Roi, b: Roi)
    requires Rect(img) && InBounds(a, |img|, Cols(img)) && a.y1 < a.y2
    requires InBounds(b, a.y2 - a.y1, a.x2 - a.x1)
    ensures var inner := Crop(img, a);
      Rect(inner) && InBounds(b, |inner|, Cols(inner)) &&
      Crop(inner, b) == Crop(img, Roi(a.x1 + b.x1, a.y1 + b.y1, a.x1 + b.x2, a.y1 + b.y2))
  {
    var inner := Crop(img, a);
    assert Cols(inner) == a.x2 - a.x1;
    var lhs := Crop(inner, b);
    var rhs := Crop(img, Roi(a.x1 + b.x1, a.y1 + b.y1, a.x1 + b.x2, a.y1 + b.y2));
    forall i | 0 <= i < |lhs|
      ensures lhs[i] == rhs[i]
    {
      assert |lhs[i]| == |rhs[i]|;
    }
  }

  /** The 0-255 rescaling in `save_png`, before the cast to `uint8`: shift
      the minimum to 0 and, when the new maximum is positive, divide by it
      and multiply by 255. It is `normalize` scaled by 255, so it lies in
      [0, 255], sends the minimum to 0, and sends a constant image to 0. */
  function PngScale(img: Image): (r: Image)
    requires NonEmpty(img)
    ensures SameShape(r, img)
    ensures forall i, j :: 0 <= i < |r| && 0 <= j < |r[i]| ==> r[i][j] == 255.0 * Normalize(img)[i][j]
    ensures forall i, j :: 0 <= i < |r| && 0 <= j < |r[i]| ==> 0.0 <= r[i][j] <= 255.0
    ensures forall i, j :: 0 <= i < |r| && 0 <= j < |r[i]| && img[i][j] == GridMin(img) ==> r[i][j] == 0.0
    ensures GridMin(img) == GridMax(img) ==> forall i, j :: 0 <= i < |r| && 0 <= j < |r[i]| ==> r[i][j] == 0.0
  {
    var lo := GridMin(img);
    var shifted := Pointwise(img, x => x - lo);
    ShiftedExtrema(img, lo, shifted);
    var hi := GridMax(shifted);
    var r := if hi > 0.0 then Pointwise(shifted, x => Scale(x, 0.0, hi) * 255.0) else shifted;
    PngScaleFacts(img, shifted, r);
    r
  }

  /** Each pixel of `PngScale` is 255 times its normalised value. */
  lemma PngScaleFacts(img: Image, shifted: Image, r: Image)
    requires NonEmpty(img) && NonEmpty(shifted) && SameShape(shifted, img) && SameShape(r, img)
    requires forall i, j :: 0 <= i < |img| && 0 <= j < |img[i]| ==> shifted[i][j] == img[i][j] - GridMin(img)
    requires GridMax(shifted) == GridMax(img) - GridMin(img)
    requires GridMax(shifted) > 0.0 ==>
      forall i, j :: 0 <= i < |img| && 0 <= j < |img[i]| ==> r[i][j] == Scale(shifted[i][j], 0.0, GridMax(shifted)) * 255.0
    requires GridMax(shifted) <= 0.0 ==> r == shifted
    ensures forall i, j :: 0 <= i < |r| && 0 <= j < |r[i]| ==> r[i][j] == 255.0 * Normalize(img)[i][j]
    ensures forall i, j :: 0 <= i < |r| && 0 <= j < |r[i]| ==> 0.0 <= r[i][j] <= 255.0
    ensures forall i, j :: 0 <= i < |r| && 0 <= j < |r[i]| && img[i][j] == GridMin(img) ==> r[i][j] == 0.0
    ensures GridMin(img) == GridMax(img) ==> forall i, j :: 0 <= i < |r| && 0 <= j < |r[i]| ==> r[i][j] == 0.0
  {
    forall i, j | 0 <= i < |r| && 0 <= j < |r[i]|
      ensures r[i][j] == 255.0 * Normalize(img)[i][j]
      ensures 0.0 <= r[i][j] <= 255.0
      ensures img[i][j] == GridMin(img) ==> r[i][j] == 0.0
    {
      PngScalePixel(img, shifted, r, i, j);
    }
  }

  /** One pixel of `PngScaleFacts`. */
  lemma PngScalePixel(img: Image, shifted: Image, r: Image, i: nat, j: nat)
    requires NonEmpty(img) && NonEmpty(shifted) && SameShape(shifted, img) && SameShape(r, img)
    requires i < |img| && j < |img[i]|
    requires shifted[i][j] == img[i][j] - GridMin(img)
    requires GridMax(shifted) == GridMax(img) - GridMin(img)
    requires GridMax(shifted) > 0.0 ==> r[i][j] == Scale(shifted[i][j], 0.0, GridMax(shifted)) * 255.0
    requires GridMax(shifted) <= 0.0 ==> r == shifted
    ensures r[i][j] == 255.0 * Normalize(img)[i][j]
    ensures 0.0 <= r[i][j] <= 255.0
    ensures img[i][j] == GridMin(img) ==> r[i][j] == 0.0
  {
    assert GridMax(shifted) <= 0.0 ==> r[i][j] == shifted[i][j];
    PngPixelScalar(img[i][j], GridMin(img), GridMax(img), shifted[i][j], GridMax(shifted), r[i][j]);
  }

  /** The arithmetic of one pixel: `x` in [lo, hi] shifted to `s = x - lo`
      and scaled by the shifted maximum `m = hi - lo`. */
  lemma PngPixelScalar(x: real, lo: real, hi: real, s: real, m: real, v: real)
    requires lo <= x <= hi && s == x - lo && m == hi - lo
    requires m > 0.0 ==> v == Scale(s, 0.0, m) * 255.0
    requires m <= 0.0 ==> v == s
    ensures v == 255.0 * Normalized(x, lo, hi)
    ensures 0.0 <= v <= 255.0
    ensures x == lo ==> v == 0.0
  {
  }
}

=== FILE: lattice.dfy ===
/** The arithmetic of the lattice module: matching refined B-site positions
    to their nearest ideal positions (`compute_b_displacements`), the
    real-space period estimate taken from the Fourier magnitude
    (`_estimate_separation_from_fft`, after the transform), and the guard
    that rejects a missing or non-positive separation. Peak finding, zone
    axes and position refinement happen inside atomap and are not
    modelled. */
module Lattice {
  import opened Base
  import opened Reals
  import opened Geometry
  import opened Sorting

  // ---------------------------------------------------------------------
  // Displacements of B sites from their nearest ideal positions
  // ---------------------------------------------------------------------

  /** The per-site displacement components, `dx[j]` and `dy[j]` for refined
      site `j`. */
  datatype Displacements = Displacements(dx: seq<real>, dy: seq<real>)

  /** The displacement of one refined position `p`: `p` minus the ideal
      position `cKDTree.query(p, k=1)` returns. The subtracted point is one
      of the ideal positions and no ideal position is closer. */
  function Offset(p: Point, ideal: seq<Point>): (v: Point)
    requires |ideal| > 0
    ensures Point(p.x - v.x, p.y - v.y) in ideal
    ensures forall k :: 0 <= k < |ideal| ==> Sq(v.x) + Sq(v.y) <= SqDist(p, ideal[k])
  {
    var q := ideal[NearestIndex(p, ideal)];
    var v := Point(p.x - q.x, p.y - q.y);
    assert Point(p.x - v.x, p.y - v.y) == q;
    v
  }

  /** `compute_b_displacements`: the offset of each refined position from
      its nearest ideal position, kept in the order of the refined
      positions. */
  function ComputeBDisplacements(refined: seq<Point>, ideal: seq<Point>): (d: Displacements)
    requires |ideal| > 0
    ensures |d.dx| == |refined| && |d.dy| == |refined|
    ensures forall j :: 0 <= j < |refined| ==>
      Point(refined[j].x - d.dx[j], refined[j].y - d.dy[j]) in ideal
    ensures forall j, k :: 0 <= j < |refined| && 0 <= k < |ideal| ==>
      Sq(d.dx[j]) + Sq(d.dy[j]) <= SqDist(refined[j], ideal[k])
  {
    var offsets := seq(|refined|, j requires 0 <= j < |refined| => Offset(refined[j], ideal));
    Displacements(
      seq(|refined|, j requires 0 <= j < |refined| => offsets[j].x),
      seq(|refined|, j requires 0 <= j < |refined| => offsets[j].y))
  }

  /** A refined position that coincides with an ideal position has zero
      displacement. */
  lemma CoincidentZero(refined: seq<Point>, ideal: seq<Point>, j: nat)
    requires |ideal| > 0 && j < |refined|
    requires refined[j] in ideal
    ensures ComputeBDisplacements(refined, ideal).dx[j] == 0.0
    ensures ComputeBDisplacements(refined, ideal).dy[j] == 0.0
  {
    var d := ComputeBDisplacements(refined, ideal);
    var k :| 0 <= k < |ideal| && ideal[k] == refined[j];
    SqDistZero(refined[j], ideal[k]);
    assert Sq(d.dx[j]) + Sq(d.dy[j]) <= 0.0;
  }

  /** When one ideal position is strictly closer to a refined position than
      every other, the displacement is measured from exactly that one. */
  lemma RecoversUniqueMatch(refined: seq<Point>, ideal: seq<Point>, j: nat, k: nat)
    requires j < |refined| && k < |ideal|
    requires forall m :: 0 <= m < |ideal| && m != k ==> SqDist(refined[j], ideal[k]) < SqDist(refined[j], ideal[m])
    ensures ComputeBDisplacements(refined, ideal).dx[j] == refined[j].x - ideal[k].x
    ensures ComputeBDisplacements(refined, ideal).dy[j] == refined[j].y - ideal[k].y
  {
    var m := NearestIndex(refined[j], ideal);
    assert SqDist(refined[j], ideal[m]) <= SqDist(refined[j], ideal[k]);
    assert Offset(refined[j], ideal) == Point(refined[j].x - ideal[k].x, refined[j].y - ideal[k].y);
  }

  /** Entry `j` belongs to refined position `j` alone: the displacements of
      a concatenation are the concatenated displacements. */
  lemma DisplacementsConcat(a: seq<Point>, b: seq<Point>, ideal: seq<Point>)
    requires |ideal| > 0
    ensures ComputeBDisplacements(a + b, ideal).dx == ComputeBDisplacements(a, ideal).dx + ComputeBDisplacements(b, ideal).dx
    ensures ComputeBDisplacements(a + b, ideal).dy == ComputeBDisplacements(a, ideal).dy + ComputeBDisplacements(b, ideal).dy
  {
    var ab, da, db := ComputeBDisplacements(a + b, ideal), ComputeBDisplacements(a, ideal), ComputeBDisplacements(b, ideal);
    forall j | 0 <= j < |a + b|
      ensures ab.dx[j] == (da.dx + db.dx)[j] && ab.dy[j] == (da.dy + db.dy)[j]
    {
      if j < |a| {
        assert (a + b)[j] == a[j];
      } else {
        assert (a + b)[j] == b[j - |a|];
      }
    }
  }

  // ---------------------------------------------------------------------
  // Period estimate from the Fourier magnitude
  // ---------------------------------------------------------------------

  /** The squared distance, in whole cells, of flat cell `i` of an `h` by
      `w` spectrum (row-major, as `ravel` orders it) from the centre
      `(h // 2, w // 2)` that `fftshift` moves the zero frequency to. */
  function CellSqRadius(h: nat, w: nat, i: nat): (r: int)
    requires w > 0
    ensures r >= 0
  {
    var dy := i / w - h / 2;
    var dx := i % w - w / 2;
    dy * dy + dx * dx
  }

  /** The centre cell, the zero-frequency term. */
  function Centre(h: nat, w: nat): nat {
    (h / 2) * w + w / 2
  }

  lemma CentreRadius(h: nat, w: nat)
    requires h > 0 && w > 0
    ensures Centre(h, w) < h * w
    ensures CellSqRadius(h, w, Centre(h, w)) == 0
  {
    var q, r := h / 2, w / 2;
    DivModOf(q, r, w);
    RowsFit(q, r, w, h);
  }

  /** Flat index `q * w + r` lies in row `q`, column `r`. */
  lemma DivModOf(q: nat, r: nat, w: nat)
    requires r < w
    ensures (q * w + r) / w == q && (q * w + r) % w == r
  {
    var a := q * w + r;
    var d, m := a / w, a % w;
    assert a == d * w + m && 0 <= m < w;
    assert (d - q) * w == r - m;
    if d > q {
      MulAtLeast(d - q, w);
    } else if d < q {
      MulAtLeast(q - d, w);
    }
  }

  lemma MulAtLeast(k: int, w: nat)
    requires k >= 1
    ensures k * w >= w
  {
  }

  /** A cell in row `q < h` lies inside the `h` by `w` grid. */
  lemma RowsFit(q: nat, r: nat, w: nat, h: nat)
    requires q < h && r < w
    ensures q * w + r < h * w
  {
    assert (q + 1) * w <= h * w;
  }

  /** The DC suppression: every cell within `minRadius` of the centre is
      zeroed, every other magnitude is kept. */
  function MaskDc(h: nat, w: nat, mag: seq<real>, minRadius: int): (r: seq<real>)
    requires w > 0 && |mag| == h * w
    ensures |r| == |mag|
    ensures forall i :: 0 <= i < |mag| ==>
      r[i] == if CellSqRadius(h, w, i) <= minRadius * minRadius then 0.0 else mag[i]
  {
    seq(|mag|, i requires 0 <= i < |mag| =>
      if CellSqRadius(h, w, i) <= minRadius * minRadius then 0.0 else mag[i])
  }

  /** The flat, row-major index of row `y`, column `x` of a `w`-wide grid. */
  function Flat(w: nat, y: nat, x: nat): nat {
    y * w + x
  }

  /** The DC suppression read over grid coordinates: cell `(y, x)` is zeroed
      exactly when `(y - h // 2)^2 + (x - w // 2)^2 <= minRadius^2`. */
  lemma MaskDcByCoordinates(h: nat, w: nat, mag: seq<real>, minRadius: int)
    requires w > 0 && |mag| == h * w
    ensures forall y, x :: 0 <= y < h && 0 <= x < w ==>
      Flat(w, y, x) < |mag| &&
      MaskDc(h, w, mag, minRadius)[Flat(w, y, x)] ==
        if (y - h / 2) * (y - h / 2) + (x - w / 2) * (x - w / 2) <= minRadius * minRadius
        then 0.0 else mag[Flat(w, y, x)]
  {
    forall y, x | 0 <= y < h && 0 <= x < w
      ensures Flat(w, y, x) < |mag|
      ensures CellSqRadius(h, w, Flat(w, y, x)) == (y - h / 2) * (y - h / 2) + (x - w / 2) * (x - w / 2)
    {
      DivModOf(y, x, w);
      RowsFit(y, x, w, h);
    }
  }

  /** Whatever the radius, the zero-frequency cell is suppressed. */
  lemma MaskDcClearsCentre(h: nat, w: nat, mag: seq<real>, minRadius: int)
    requires h > 0 && w > 0 && |mag| == h * w
    ensures Centre(h, w) < |mag| && MaskDc(h, w, mag, minRadius)[Centre(h, w)] == 0.0
  {
    CentreRadius(h, w);
    assert minRadius * minRadius >= 0;
  }

  /** Where `np.argpartition(values, -k)[-k:]` starts in an ascending
      ordering: `k` from the end, except that `[-0:]` is the whole array. */
  function Cut(n: nat, k: nat): nat
    requires k <= n
  {
    if k == 0 then 0 else n - k
  }

  /** The cells `argpartition(...)[-k:]` selects: `k` cells (all cells
      when `k == 0`). */
  function Selected(values: seq<real>, k: nat): (sel: seq<nat>)
    requires k <= |values|
    ensures k > 0 ==> |sel| == k
    ensures k == 0 ==> |sel| == |values|
    ensures forall t :: 0 <= t < |sel| ==> sel[t] < |values|
  {
    Argsort(values)[Cut(|values|, k)..]
  }

  /** The cells the selection leaves out. */
  function Unselected(values: seq<real>, k: nat): (rest: seq<nat>)
    requires k <= |values|
    ensures forall t :: 0 <= t < |rest| ==> rest[t] < |values|
  {
    Argsort(values)[..Cut(|values|, k)]
  }

  /** The selected and left-out cells split the cells between them, and no
      left-out cell has a larger value than a selected one: the selection
      is of the largest values. */
  lemma SelectionPartition(values: seq<real>, k: nat)
    requires k <= |values|
    ensures multiset(Selected(values, k)) + multiset(Unselected(values, k)) == multiset(Range(|values|))
    ensures forall s, u :: 0 <= s < |Selected(values, k)| && 0 <= u < |Unselected(values, k)| ==>
      values[Unselected(values, k)[u]] <= values[Selected(values, k)[s]]
  {
    var order := Argsort(values);
    var c := Cut(|values|, k);
    assert Selected(values, k) == order[c..] && Unselected(values, k) == order[..c];
    SplitMultiset(order, c);
    SelectionDominates(values, order, c);
  }

  /** Cutting a sequence in two splits its elements between the halves. */
  lemma SplitMultiset(s: seq<nat>, c: nat)
    requires c <= |s|
    ensures multiset(s[..c]) + multiset(s[c..]) == multiset(s)
  {
    assert s == s[..c] + s[c..];
  }

  /** In a sorted order, the entries before a cut are no larger than those
      after it. */
  lemma SelectionDominates(values: seq<real>, order: seq<nat>, c: nat)
    requires c <= |order|
    requires forall i :: 0 <= i < |order| ==> order[i] < |values|
    requires forall i, j :: 0 <= i < j < |order| ==> values[order[i]] <= values[order[j]]
    ensures forall s, u :: 0 <= s < |order[c..]| && 0 <= u < |order[..c]| ==> values[order[..c][u]] <= values[order[c..][s]]
  {
    forall s, u | 0 <= s < |order| - c && 0 <= u < c
      ensures values[order[..c][u]] <= values[order[c..][s]]
    {
      assert order[c..][s] == order[c + s];
      assert order[..c][u] == order[u];
    }
  }

  /** The entries of `s` that are positive, in order: `s[s > 0]`. */
  function Positives(s: seq<real>): (r: seq<real>)
    ensures forall x :: multiset(r)[x] == if x > 0.0 then multiset(s)[x] else 0
    ensures forall x :: x in r <==> x in s && x > 0.0
    ensures forall i :: 0 <= i < |r| ==> r[i] > 0.0
    ensures |r| == 0 <==> forall i :: 0 <= i < |s| ==> s[i] <= 0.0
  {
    if |s| == 0 then []
    else
      assert s == [s[0]] + s[1..];
      var r := if s[0] > 0.0 then [s[0]] + Positives(s[1..]) else Positives(s[1..]);
      assert forall x :: multiset(r)[x] == if x > 0.0 then multiset(s)[x] else 0;
      FilteredMembers(r, s);
      r
  }

  /** A sequence holding each positive value of `s` as often as `s` does,
      and nothing else, has exactly the positive values of `s` as members. */
  lemma FilteredMembers(r: seq<real>, s: seq<real>)
    requires forall x :: multiset(r)[x] == if x > 0.0 then multiset(s)[x] else 0
    ensures forall x :: x in r <==> x in s && x > 0.0
    ensures forall i :: 0 <= i < |r| ==> r[i] > 0.0
    ensures |r| == 0 <==> forall i :: 0 <= i < |s| ==> s[i] <= 0.0
  {
    forall x
      ensures x in r <==> x in s && x > 0.0
    {
      assert x in r <==> multiset(r)[x] > 0;
      assert x in s <==> multiset(s)[x] > 0;
    }
    if |r| == 0 {
      forall i | 0 <= i < |s|
        ensures s[i] <= 0.0
      {
        assert s[i] in s;
      }
    } else {
      assert r[0] in r;
    }
    forall i | 0 <= i < |r|
      ensures r[i] > 0.0
    {
      assert r[i] in r;
    }
  }

  /** The distances from the centre of the selected cells, as
      `np.linalg.norm` gives them. */
  function CellDistances(h: nat, w: nat, sel: seq<nat>, sqrt: real -> real): (ds: seq<real>)
    requires w > 0
    ensures |ds| == |sel| && forall t :: 0 <= t < |sel| ==> ds[t] == sqrt(CellSqRadius(h, w, sel[t]) as real)
  {
    seq(|sel|, t requires 0 <= t < |sel| => sqrt(CellSqRadius(h, w, sel[t]) as real))
  }

  /** `[h / d, w / d]` for each distance `d`, in order. */
  function Periods(h: nat, w: nat, ds: seq<real>): (ps: seq<real>)
    requires forall i :: 0 <= i < |ds| ==> ds[i] > 0.0
    ensures |ps| == 2 * |ds|
  {
    if |ds| == 0 then []
    else [h as real / ds[0], w as real / ds[0]] + Periods(h, w, ds[1..])
  }

  /** Distance `i` contributes the row period `h / d` at `2 i` and the
      column period `w / d` at `2 i + 1`. */
  lemma {:induction false} PeriodsAt(h: nat, w: nat, ds: seq<real>, i: nat)
    requires forall k :: 0 <= k < |ds| ==> ds[k] > 0.0
    requires i < |ds|
    ensures Periods(h, w, ds)[2 * i] == h as real / ds[i]
    ensures Periods(h, w, ds)[2 * i + 1] == w as real / ds[i]
  {
    if i > 0 {
      PeriodsAt(h, w, ds[1..], i - 1);
      assert ds[i] == ds[1..][i - 1];
    }
  }

  /** `1 / d` for each distance `d`: the spatial frequencies of the peaks. */
  function Reciprocals(ds: seq<real>): (rs: seq<real>)
    requires forall i :: 0 <= i < |ds| ==> ds[i] > 0.0
    ensures |rs| == |ds| && forall i :: 0 <= i < |ds| ==> rs[i] == 1.0 / ds[i]
  {
    seq(|ds|, i requires 0 <= i < |ds| => 1.0 / ds[i])
  }

  /** The periods sum to `h + w` times the summed frequencies. */
  lemma {:induction false} PeriodsSumReciprocals(h: nat, w: nat, ds: seq<real>)
    requires forall i :: 0 <= i < |ds| ==> ds[i] > 0.0
    ensures Sum(Periods(h, w, ds)) == Prod((h + w) as real, Sum(Reciprocals(ds)))
  {
    if |ds| > 0 {
      PeriodsSumReciprocals(h, w, ds[1..]);
      var ps := Periods(h, w, ds);
      assert ps[1..] == [w as real / ds[0]] + Periods(h, w, ds[1..]);
      assert Reciprocals(ds)[1..] == Reciprocals(ds[1..]);
      ReciprocalStep(h as real, w as real, ds[0], Sum(Reciprocals(ds[1..])), Sum(Reciprocals(ds)));
    }
  }

  lemma ReciprocalStep(h: real, w: real, d: real, s: real, total: real)
    requires d > 0.0 && total == 1.0 / d + s
    ensures h / d + (w / d + Prod(h + w, s)) == Prod(h + w, total)
  {
    assert h / d == h * (1.0 / d) && w / d == w * (1.0 / d);
  }

  /** The selected cells, the magnitude after DC suppression, and the
      non-zero distances the estimate averages over. */
  function PeakDistances(h: nat, w: nat, mag: seq<real>, numPeaks: nat, minRadius: int,
                         sqrt: real -> real): (ds: seq<real>)
    requires w > 0 && |mag| == h * w && numPeaks <= h * w
    ensures forall i :: 0 <= i < |ds| ==> ds[i] > 0.0
    ensures var all := CellDistances(h, w, Selected(MaskDc(h, w, mag, minRadius), numPeaks), sqrt);
      forall x :: multiset(ds)[x] == if x > 0.0 then multiset(all)[x] else 0
  {
    var sel := Selected(MaskDc(h, w, mag, minRadius), numPeaks);
    Positives(CellDistances(h, w, sel, sqrt))
  }

  /** The non-zero distances run out exactly when every selected cell is
      the centre. */
  lemma NoPeaksIff(h: nat, w: nat, mag: seq<real>, numPeaks: nat, minRadius: int, sqrt: real -> real)
    requires w > 0 && |mag| == h * w && numPeaks <= h * w
    requires IsSqrt(sqrt)
    ensures var sel := Selected(MaskDc(h, w, mag, minRadius), numPeaks);
      |PeakDistances(h, w, mag, numPeaks, minRadius, sqrt)| == 0 <==>
      forall t :: 0 <= t < |sel| ==> CellSqRadius(h, w, sel[t]) == 0
  {
    var sel := Selected(MaskDc(h, w, mag, minRadius), numPeaks);
    var all := CellDistances(h, w, sel, sqrt);
    forall t | 0 <= t < |sel|
      ensures all[t] <= 0.0 <==> CellSqRadius(h, w, sel[t]) == 0
    {
      SqrtPositive(sqrt, CellSqRadius(h, w, sel[t]) as real);
    }
  }

  /** `_estimate_separation_from_fft` after the transform, given the
      magnitude `|fftshift(fft2(image))|` as `h * w` values in row-major
      order. It returns `None` exactly when every selected cell is the
      centre, and otherwise the mean of `h / d` and `w / d` over the
      non-zero distances `d`, which is positive. */
  function EstimateSeparation(h: nat, w: nat, mag: seq<real>, numPeaks: nat, minRadius: int,
                              sqrt: real -> real): (r: Option<real>)
    requires h > 0 && w > 0 && |mag| == h * w && numPeaks <= h * w
    requires IsSqrt(sqrt)
    ensures var sel := Selected(MaskDc(h, w, mag, minRadius), numPeaks);
      r.None? <==> forall t :: 0 <= t < |sel| ==> CellSqRadius(h, w, sel[t]) == 0
    ensures r.Some? ==> r.value > 0.0
    ensures r.Some? ==> var ds := PeakDistances(h, w, mag, numPeaks, minRadius, sqrt);
      |ds| > 0 && r.value == HalfOf((h + w) as real, Mean(Reciprocals(ds)))
  {
    var ds := PeakDistances(h, w, mag, numPeaks, minRadius, sqrt);
    NoPeaksIff(h, w, mag, numPeaks, minRadius, sqrt);
    if |ds| == 0 then None
    else
      PeriodsPositive(h, w, ds);
      MeanPositive(Periods(h, w, ds));
      MeanPeriod(h, w, ds);
      Some(Mean(Periods(h, w, ds)))
  }

  /** The mean of the periods is half of `h + w` times the mean frequency. */
  lemma MeanPeriod(h: nat, w: nat, ds: seq<real>)
    requires |ds| > 0 && forall i :: 0 <= i < |ds| ==> ds[i] > 0.0
    ensures Mean(Periods(h, w, ds)) == HalfOf((h + w) as real, Mean(Reciprocals(ds)))
  {
    PeriodsSumReciprocals(h, w, ds);
    HalfMean(Sum(Periods(h, w, ds)), |Periods(h, w, ds)| as real, (h + w) as real,
             Mean(Reciprocals(ds)), Sum(Reciprocals(ds)), |Reciprocals(ds)| as real);
  }

  /** `2 n` periods summing to `a` times the `n` frequencies' sum average
      to `a / 2` times the mean frequency. */
  lemma HalfMean(s: real, m: real, a: real, q: real, t: real, n: real)
    requires n > 0.0 && m == 2.0 * n && s == Prod(a, t) && q == t / n
    ensures s / m == HalfOf(a, q)
  {
  }

  /** Half of the product `a q`. */
  function HalfOf(a: real, q: real): real { a * q / 2.0 }

  /** Half of the quotient `a / d`: the estimate when every peak lies at distance `d`. */
  function HalfOver(a: real, d: real): real
    requires d != 0.0
  {
    a / (2.0 * d)
  }

  /** The estimate lies between the periods of the farthest and of the
      nearest peak: `(h + w) / (2 max d)` and `(h + w) / (2 min d)`. */
  lemma SeparationBounds(h: nat, w: nat, mag: seq<real>, numPeaks: nat, minRadius: int, sqrt: real -> real)
    requires h > 0 && w > 0 && |mag| == h * w && numPeaks <= h * w
    requires IsSqrt(sqrt)
    ensures var r := EstimateSeparation(h, w, mag, numPeaks, minRadius, sqrt);
      var ds := PeakDistances(h, w, mag, numPeaks, minRadius, sqrt);
      r.Some? ==>
        |ds| > 0 && HalfOver((h + w) as real, MaxOf(ds)) <= r.value <= HalfOver((h + w) as real, MinOf(ds))
  {
    var ds := PeakDistances(h, w, mag, numPeaks, minRadius, sqrt);
    if |ds| > 0 {
      var rs := Reciprocals(ds);
      forall i | 0 <= i < |rs|
        ensures 1.0 / MaxOf(ds) <= rs[i] <= 1.0 / MinOf(ds)
      {
        ReciprocalOrder(MinOf(ds), ds[i], MaxOf(ds));
      }
      MeanBounds(rs, 1.0 / MaxOf(ds), 1.0 / MinOf(ds));
      HalfBounds((h + w) as real, Mean(rs), MinOf(ds), MaxOf(ds));
      var r := EstimateSeparation(h, w, mag, numPeaks, minRadius, sqrt);
    }
  }

  lemma ReciprocalOrder(lo: real, d: real, hi: real)
    requires 0.0 < lo <= d <= hi
    ensures 1.0 / hi <= 1.0 / d <= 1.0 / lo
  {
  }

  lemma HalfBounds(a: real, q: real, lo: real, hi: real)
    requires 0.0 < a && 0.0 < lo <= hi && 1.0 / hi <= q <= 1.0 / lo
    ensures HalfOver(a, hi) <= HalfOf(a, q) <= HalfOver(a, lo)
  {
    MulMono(a, 1.0 / hi, q);
    MulMono(a, q, 1.0 / lo);
  }

  lemma {:induction false} PeriodsPositive(h: nat, w: nat, ds: seq<real>)
    requires h > 0 && w > 0
    requires forall i :: 0 <= i < |ds| ==> ds[i] > 0.0
    ensures forall i :: 0 <= i < |Periods(h, w, ds)| ==> Periods(h, w, ds)[i] > 0.0
  {
    if |ds| > 0 {
      PeriodsPositive(h, w, ds[1..]);
      var ps := Periods(h, w, ds);
      assert ps[2..] == Periods(h, w, ds[1..]);
      forall i | 0 <= i < |ps|
        ensures ps[i] > 0.0
      {
        if i >= 2 {
          assert ps[i] == ps[2..][i - 2];
        }
      }
    }
  }

  /** When every non-zero peak distance is the same `d`, the estimate is
      `(h + w) / (2 d)`: the mean of the row and column periods. */
  lemma UniformPeaksPeriod(h: nat, w: nat, ds: seq<real>, d: real)
    requires |ds| > 0 && d > 0.0
    requires forall i :: 0 <= i < |ds| ==> ds[i] == d
    ensures Mean(Periods(h, w, ds)) == (h + w) as real / (2.0 * d)
  {
    var ps := Periods(h, w, ds);
    PeriodsSum(h, w, ds, d);
    UniformMean(Sum(ps), |ps| as real, |ds| as real, (h + w) as real, d);
  }

  lemma {:induction false} PeriodsSum(h: nat, w: nat, ds: seq<real>, d: real)
    requires d > 0.0
    requires forall i :: 0 <= i < |ds| ==> ds[i] == d
    ensures Sum(Periods(h, w, ds)) == |ds| as real * ((h + w) as real / d)
  {
    if |ds| > 0 {
      PeriodsSum(h, w, ds[1..], d);
      var ps := Periods(h, w, ds);
      assert ps[1..] == [w as real / d] + Periods(h, w, ds[1..]);
      assert Sum(ps) == h as real / d + (w as real / d + Sum(Periods(h, w, ds[1..])));
      SplitQuotient(h as real, w as real, d);
    }
  }

  lemma SplitQuotient(a: real, b: real, d: real)
    requires d > 0.0
    ensures a / d + b / d == (a + b) / d
  {
  }

  lemma UniformMean(s: real, m: real, n: real, a: real, d: real)
    requires n > 0.0 && d > 0.0 && m == 2.0 * n && s == n * (a / d)
    ensures s / m == a / (2.0 * d)
  {
  }

  /** The separation guard of `build_atom_lattice` and the pipeline: use
      the given separation, else the estimate; `None` stands for the
      `ValueError` raised when the result is missing or not positive. */
  function ResolveSeparation(given: Option<real>, estimate: Option<real>): (r: Option<real>)
    ensures r.Some? ==> r.value > 0.0
    ensures r.Some? <==> (if given.Some? then given.value > 0.0 else estimate.Some? && estimate.value > 0.0)
    ensures given.Some? && r.Some? ==> r.value == given.value
    ensures given.None? && r.Some? ==> r.value == estimate.value
  {
    var sep := if given.Some? then given else estimate;
    if sep.None? || sep.value <= 0.0 then None else sep
  }
}

=== FILE: line_profile.dfy ===
/** `compute_line_profile`: values of scattered data sampled at evenly
    spaced points along a segment, each sample an inverse-distance weighted
    average of the data within a search radius, or the nearest datum when
    none is within reach. The KD-tree only speeds up the searches, so the
    model searches every point. Plotting the profile is not modelled. */
module LineProfile {
  import opened Base
  import opened Reals
  import opened Geometry

  /** The three arrays the function returns. */
  datatype Profile = Profile(distances: seq<real>, positions: seq<Point>, samples: seq<real>)

  /** The constant added to each distance before inverting it, so that a
      datum exactly at the sample position gets a finite weight. */
  const Epsilon: real := 0.0000000001

  /** `np.linalg.norm(end - start)`. */
  function LineLength(start: Point, end: Point, sqrt: real -> real): (l: real)
    requires IsSqrt(sqrt)
    ensures 0.0 <= l && Sq(l) == SqDist(start, end)
    ensures l == 0.0 <==> start == end
  {
    SqrtPositive(sqrt, SqDist(start, end));
    SqDistZero(start, end);
    sqrt(SqDist(start, end))
  }

  /** The search radius: the given one, else a tenth of the line length. */
  function Radius(searchRadius: Option<real>, lineLength: real): (r: real)
    ensures searchRadius.Some? ==> r == searchRadius.value
    ensures searchRadius.None? ==> 10.0 * r == lineLength
  {
    if searchRadius.Some? then searchRadius.value else lineLength / 10.0
  }

  /** `start + t * (end - start)`. */
  function Along(start: Point, end: Point, t: real): Point {
    Point(start.x + t * (end.x - start.x), start.y + t * (end.y - start.y))
  }

  /** The data points within `radius` of `pos`, as `query_ball_point`
      finds them (the boundary included), listed in increasing index order
      from `from` on. */
  function Neighbours(points: seq<Point>, pos: Point, radius: real, sqrt: real -> real, from: nat): (nb: seq<nat>)
    requires from <= |points|
    ensures forall k :: 0 <= k < |nb| ==> from <= nb[k] < |points| && sqrt(SqDist(points[nb[k]], pos)) <= radius
    ensures forall j :: from <= j < |points| && sqrt(SqDist(points[j], pos)) <= radius ==> j in nb
    ensures forall a, b :: 0 <= a < b < |nb| ==> nb[a] < nb[b]
    decreases |points| - from
  {
    if from == |points| then []
    else
      var rest := Neighbours(points, pos, radius, sqrt, from + 1);
      if sqrt(SqDist(points[from], pos)) <= radius then [from] + rest else rest
  }

  /** The inverse-distance weight `1 / (d + 1e-10)` of a point at
      distance `d`: positive, and larger the nearer the point. */
  function InverseWeight(d: real): (wt: real)
    requires 0.0 <= d
    ensures 0.0 < wt && wt * (d + Epsilon) == 1.0
  {
    1.0 / (d + Epsilon)
  }

  /** A strictly nearer point gets a strictly larger weight. */
  lemma NearerWeighsMore(d1: real, d2: real)
    requires 0.0 <= d1 < d2
    ensures InverseWeight(d1) > InverseWeight(d2)
  {
    var w1, w2 := InverseWeight(d1), InverseWeight(d2);
    MulMono(w2, d1 + Epsilon, d2 + Epsilon);
    assert w2 * (d1 + Epsilon) < 1.0;
    assert w2 * (d1 + Epsilon) < w1 * (d1 + Epsilon);
  }

  /** The distance from `pos` of each data point, as `np.linalg.norm`
      gives it. */
  function DistanceTo(p: Point, pos: Point, sqrt: real -> real): (d: real)
    requires IsSqrt(sqrt)
    ensures 0.0 <= d && Sq(d) == SqDist(p, pos)
  {
    SqrtPositive(sqrt, SqDist(p, pos));
    sqrt(SqDist(p, pos))
  }

  /** The inverse-distance weights `1 / (d + 1e-10)` of the listed points. */
  function Weights(points: seq<Point>, pos: Point, nb: seq<nat>, sqrt: real -> real): (ws: seq<real>)
    requires IsSqrt(sqrt)
    requires forall k :: 0 <= k < |nb| ==> nb[k] < |points|
    ensures |ws| == |nb|
    ensures forall k :: 0 <= k < |nb| ==> ws[k] == InverseWeight(DistanceTo(points[nb[k]], pos, sqrt))
    ensures forall k :: 0 <= k < |nb| ==> 0.0 < ws[k]
  {
    seq(|nb|, k requires 0 <= k < |nb| => InverseWeight(DistanceTo(points[nb[k]], pos, sqrt)))
  }

  /** Of two listed points, the strictly nearer one weighs strictly more. */
  lemma WeightsOrder(points: seq<Point>, pos: Point, nb: seq<nat>, sqrt: real -> real, a: nat, b: nat)
    requires IsSqrt(sqrt)
    requires forall k :: 0 <= k < |nb| ==> nb[k] < |points|
    requires a < |nb| && b < |nb|
    requires DistanceTo(points[nb[a]], pos, sqrt) < DistanceTo(points[nb[b]], pos, sqrt)
    ensures Weights(points, pos, nb, sqrt)[a] > Weights(points, pos, nb, sqrt)[b]
  {
    NearerWeighsMore(DistanceTo(points[nb[a]], pos, sqrt), DistanceTo(points[nb[b]], pos, sqrt));
  }

  /** The values at the listed points. */
  function ValuesAt(values: seq<real>, nb: seq<nat>): (vs: seq<real>)
    requires forall k :: 0 <= k < |nb| ==> nb[k] < |values|
    ensures |vs| == |nb| && forall k :: 0 <= k < |nb| ==> vs[k] == values[nb[k]]
  {
    seq(|nb|, k requires 0 <= k < |nb| => values[nb[k]])
  }

  /** The sample at `pos`. With neighbours it is their weighted average, so
      it lies between the smallest and the largest neighbour value; with
      none it is the value of the nearest data point. */
  function SampleAt(points: seq<Point>, values: seq<real>, pos: Point, radius: real, sqrt: real -> real): (v: real)
    requires |points| > 0 && |values| == |points|
    requires IsSqrt(sqrt)
    ensures var nb := Neighbours(points, pos, radius, sqrt, 0);
      |nb| > 0 ==>
        (exists k :: 0 <= k < |nb| && values[nb[k]] <= v) &&
        (exists k :: 0 <= k < |nb| && v <= values[nb[k]])
    ensures var nb := Neighbours(points, pos, radius, sqrt, 0);
      |nb| > 0 ==>
        var ws := Weights(points, pos, nb, sqrt);
        0.0 < Sum(ws) && Prod(v, Sum(ws)) == Dot(ws, ValuesAt(values, nb))
    ensures var nb := Neighbours(points, pos, radius, sqrt, 0);
      |nb| == 0 ==>
        exists k :: 0 <= k < |points| && v == values[k] &&
          forall j :: 0 <= j < |points| ==> SqDist(pos, points[k]) <= SqDist(pos, points[j])
  {
    var nb := Neighbours(points, pos, radius, sqrt, 0);
    if |nb| == 0 then
      values[NearestIndex(pos, points)]
    else
      var vs := ValuesAt(values, nb);
      var v := WeightedMean(Weights(points, pos, nb, sqrt), vs);
      assert MinOf(vs) in vs && MaxOf(vs) in vs;
      v
  }

  /** Neighbours all at the same distance weigh the same, so the sample is
      the plain mean of their values. */
  lemma EquidistantSample(points: seq<Point>, values: seq<real>, pos: Point, radius: real, sqrt: real -> real, d: real)
    requires |points| > 0 && |values| == |points|
    requires IsSqrt(sqrt)
    requires var nb := Neighbours(points, pos, radius, sqrt, 0);
      |nb| > 0 && forall k :: 0 <= k < |nb| ==> DistanceTo(points[nb[k]], pos, sqrt) == d
    ensures SampleAt(points, values, pos, radius, sqrt) == Mean(ValuesAt(values, Neighbours(points, pos, radius, sqrt, 0)))
  {
    var nb := Neighbours(points, pos, radius, sqrt, 0);
    var k0 := 0;
    assert 0.0 <= d by { assert DistanceTo(points[nb[k0]], pos, sqrt) == d; }
    EqualWeightsMean(Weights(points, pos, nb, sqrt), ValuesAt(values, nb), InverseWeight(d));
  }

  /** `t * line_length` for `t = np.linspace(0, 1, n)`: the distance of
      each sample from the start, running from 0 up to the length without
      ever decreasing. */
  function Distances(len: real, n: nat): (ds: seq<real>)
    requires 0.0 <= len
    ensures |ds| == n
    ensures n >= 1 ==> ds[0] == 0.0
    ensures n >= 2 ==> ds[n - 1] == len
    ensures forall i :: 0 <= i < n ==> 0.0 <= ds[i] <= len
    ensures forall i :: 0 <= i < n - 1 ==> ds[i] <= ds[i + 1]
    ensures n >= 2 ==> forall i :: 0 <= i < n - 1 ==> ds[i + 1] - ds[i] == len / (n - 1) as real
  {
    var t := Linspace(0.0, 1.0, n);
    var ds := seq(n, i requires 0 <= i < n => Prod(t[i], len));
    forall i | 0 <= i < n
      ensures 0.0 <= ds[i] <= len
    {
      ScaleBetween(len, t[i], t[i]);
    }
    forall i | 0 <= i < n - 1
      ensures ds[i] <= ds[i + 1]
      ensures ds[i + 1] - ds[i] == len / (n - 1) as real
    {
      LinspaceStep(0.0, 1.0, n, i);
      ScaleBetween(len, t[i], t[i + 1]);
      ProdStep(t[i], t[i + 1], len, (n - 1) as real);
    }
    ds
  }

  /** Fractions `1 / m` apart give multiples of `len` that are `len / m`
      apart. */
  lemma ProdStep(a: real, b: real, len: real, m: real)
    requires m > 0.0 && b - a == (1.0 - 0.0) / m
    ensures Prod(b, len) - Prod(a, len) == len / m
  {
    assert Prod(b, len) - Prod(a, len) == (b - a) * len;
  }

  /** One coordinate of `Along` at fractions `1 / m` apart moves by a
      `1 / m` share of the coordinate's span. */
  lemma AlongStep(a: real, b: real, s: real, e: real, m: real)
    requires m > 0.0 && b - a == (1.0 - 0.0) / m
    ensures (s + b * (e - s)) - (s + a * (e - s)) == (e - s) / m
  {
    assert (s + b * (e - s)) - (s + a * (e - s)) == (b - a) * (e - s);
  }

  lemma ScaleBetween(len: real, a: real, b: real)
    requires 0.0 <= len && 0.0 <= a <= b <= 1.0
    ensures 0.0 <= Prod(a, len) <= Prod(b, len) <= len
    ensures a == 0.0 ==> Prod(a, len) == 0.0
    ensures b == 1.0 ==> Prod(b, len) == len
  {
    assert Prod(a, len) == a * len && Prod(b, len) == b * len;
    MulMono(len, a, b);
    MulMono(len, 0.0, a);
    MulMono(len, b, 1.0);
  }

  /** `start + np.outer(t, end - start)`: evenly spaced points from `start`
      to `end`. */
  function Positions(start: Point, end: Point, n: nat): (ps: seq<Point>)
    ensures |ps| == n
    ensures n >= 1 ==> ps[0] == start
    ensures n >= 2 ==> ps[n - 1] == end
    ensures n >= 2 ==> forall i :: 0 <= i < n - 1 ==>
      ps[i + 1].x - ps[i].x == (end.x - start.x) / (n - 1) as real &&
      ps[i + 1].y - ps[i].y == (end.y - start.y) / (n - 1) as real
  {
    var t := Linspace(0.0, 1.0, n);
    var ps := seq(n, i requires 0 <= i < n => Along(start, end, t[i]));
    forall i | 0 <= i < n - 1
      ensures ps[i + 1].x - ps[i].x == (end.x - start.x) / (n - 1) as real
      ensures ps[i + 1].y - ps[i].y == (end.y - start.y) / (n - 1) as real
    {
      LinspaceStep(0.0, 1.0, n, i);
      AlongStep(t[i], t[i + 1], start.x, end.x, (n - 1) as real);
      AlongStep(t[i], t[i + 1], start.y, end.y, (n - 1) as real);
    }
    ps
  }

  /** The sample at each position. */
  function Samples(points: seq<Point>, values: seq<real>, positions: seq<Point>, radius: real, sqrt: real -> real): (vs: seq<real>)
    requires |positions| > 0 ==> |points| > 0
    requires |values| == |points|
    requires IsSqrt(sqrt)
    ensures |vs| == |positions|
    ensures forall i :: 0 <= i < |positions| ==> vs[i] == SampleAt(points, values, positions[i], radius, sqrt)
  {
    seq(|positions|, i requires 0 <= i < |positions| => SampleAt(points, values, positions[i], radius, sqrt))
  }

  /** `compute_line_profile`. The arrays have `numSamples` entries; the
      positions run evenly from `start` to `end` and the distances from 0 to
      the line length; each sample is the one taken at its position with
      the given radius, or a tenth of the line length when none is given.
      Samples need at least one data point, since the nearest one may be
      looked up. */
  function ComputeLineProfile(points: seq<Point>, values: seq<real>, start: Point, end: Point,
                              numSamples: nat, searchRadius: Option<real>, sqrt: real -> real): (p: Profile)
    requires |values| == |points|
    requires numSamples > 0 ==> |points| > 0
    requires IsSqrt(sqrt)
    ensures |p.distances| == numSamples && |p.positions| == numSamples && |p.samples| == numSamples
    ensures numSamples >= 1 ==> p.positions[0] == start && p.distances[0] == 0.0
    ensures numSamples >= 2 ==> p.positions[numSamples - 1] == end && p.distances[numSamples - 1] == LineLength(start, end, sqrt)
    ensures forall i :: 0 <= i < numSamples ==> 0.0 <= p.distances[i] <= LineLength(start, end, sqrt)
    ensures forall i :: 0 <= i < numSamples - 1 ==> p.distances[i] <= p.distances[i + 1]
    ensures numSamples >= 2 ==> forall i :: 0 <= i < numSamples - 1 ==>
      p.distances[i + 1] - p.distances[i] == LineLength(start, end, sqrt) / (numSamples - 1) as real &&
      p.positions[i + 1].x - p.positions[i].x == (end.x - start.x) / (numSamples - 1) as real &&
      p.positions[i + 1].y - p.positions[i].y == (end.y - start.y) / (numSamples - 1) as real
    ensures forall i :: 0 <= i < numSamples ==>
      p.samples[i] == SampleAt(points, values, p.positions[i], Radius(searchRadius, LineLength(start, end, sqrt)), sqrt)
  {
    var len := LineLength(start, end, sqrt);
    var positions := Positions(start, end, numSamples);
    Profile(Distances(len, numSamples), positions,
      Samples(points, values, positions, Radius(searchRadius, len), sqrt))
  }

  /** Each position lies on the line at its listed distance from the start. */
  lemma PositionsAtDistances(start: Point, end: Point, n: nat, sqrt: real -> real, i: nat)
    requires IsSqrt(sqrt)
    requires i < n
    ensures SqDist(start, Positions(start, end, n)[i]) == Sq(Distances(LineLength(start, end, sqrt), n)[i])
  {
    var t := Linspace(0.0, 1.0, n)[i];
    var len := LineLength(start, end, sqrt);
    assert Positions(start, end, n)[i] == Along(start, end, t);
    assert Distances(len, n)[i] == Prod(t, len);
    AlongDistance(start, end, t, len);
  }

  lemma AlongDistance(start: Point, end: Point, t: real, len: real)
    requires Sq(len) == SqDist(start, end)
    ensures SqDist(start, Along(start, end, t)) == Sq(Prod(t, len))
  {
    var a, b := end.x - start.x, end.y - start.y;
    assert SqDist(start, end) == Sq(a) + Sq(b) by {
      assert Sq(start.x - end.x) == Sq(a) && Sq(start.y - end.y) == Sq(b);
    }
    assert start.x - Along(start, end, t).x == -(t * a);
    assert start.y - Along(start, end, t).y == -(t * b);
    ScaledLength(t, a, b, len);
  }

  lemma ScaledLength(t: real, a: real, b: real, l: real)
    requires Sq(l) == Sq(a) + Sq(b)
    ensures Sq(-(t * a)) + Sq(-(t * b)) == Sq(Prod(t, l))
  {
    assert l * l == a * a + b * b;
    assert (t * l) * (t * l) == t * t * (l * l);
    assert (t * a) * (t * a) + (t * b) * (t * b) == t * t * (a * a + b * b);
  }

  /** Data of one value give a profile of that value, wherever the line
      runs and whatever the radius. */
  lemma ConstantProfile(points: seq<Point>, values: seq<real>, c: real, start: Point, end: Point,
                        numSamples: nat, searchRadius: Option<real>, sqrt: real -> real)
    requires |values| == |points|
    requires numSamples > 0 ==> |points| > 0
    requires IsSqrt(sqrt)
    requires forall j :: 0 <= j < |values| ==> values[j] == c
    ensures forall i :: 0 <= i < numSamples ==>
      ComputeLineProfile(points, values, start, end, numSamples, searchRadius, sqrt).samples[i] == c
  {
    var p := ComputeLineProfile(points, values, start, end, numSamples, searchRadius, sqrt);
    forall i | 0 <= i < numSamples
      ensures p.samples[i] == c
    {
      ConstantSample(points, values, c, p.positions[i], Radius(searchRadius, LineLength(start, end, sqrt)), sqrt);
    }
  }

  lemma ConstantSample(points: seq<Point>, values: seq<real>, c: real, pos: Point, radius: real, sqrt: real -> real)
    requires |points| > 0 && |values| == |points|
    requires IsSqrt(sqrt)
    requires forall j :: 0 <= j < |values| ==> values[j] == c
    ensures SampleAt(points, values, pos, radius, sqrt) == c
  {
  }

  /** A negative radius finds no neighbours, so every sample is the value
      of the nearest data point. */
  lemma NegativeRadiusIsNearest(points: seq<Point>, values: seq<real>, pos: Point, radius: real, sqrt: real -> real)
    requires |points| > 0 && |values| == |points|
    requires IsSqrt(sqrt)
    requires radius < 0.0
    ensures SampleAt(points, values, pos, radius, sqrt) == values[NearestIndex(pos, points)]
  {
    NoNeighbours(points, pos, radius, sqrt, 0);
  }

  lemma {:induction false} NoNeighbours(points: seq<Point>, pos: Point, radius: real, sqrt: real -> real, from: nat)
    requires from <= |points|
    requires IsSqrt(sqrt)
    requires radius < 0.0
    ensures Neighbours(points, pos, radius, sqrt, from) == []
    decreases |points| - from
  {
    if from < |points| {
      SqrtPositive(sqrt, SqDist(points[from], pos));
      NoNeighbours(points, pos, radius, sqrt, from + 1);
    }
  }
}

=== FILE: preprocess.dfy ===
/** Image preprocessing: rescaling to [0, 1], background removal by
    subtracting a blurred copy, and the crop / background / smoothing /
    normalise sequence applied before atom finding. The Gaussian blur is
    `scipy.ndimage.gaussian_filter`; the model receives it as a parameter
    and assumes only that it keeps the image's shape. */
module Preprocess {
  import opened Base
  import opened Reals
  import opened Grid

  /** `(x - lo) / span`: where `x` falls between `lo` and `lo + span`, as a
      fraction of `span`. */
  function Scale(x: real, lo: real, span: real): (r: real)
    requires 0.0 < span
    ensures lo <= x <= lo + span ==> 0.0 <= r <= 1.0
    ensures x == lo ==> r == 0.0
    ensures x == lo + span ==> r == 1.0
    ensures lo == 0.0 && span == 1.0 ==> r == x
  {
    assert lo <= x <= lo + span ==> 0.0 <= (x - lo) / span <= 1.0 by {
      if lo <= x <= lo + span {
        FractionInUnit(x - lo, span);
      }
    }
    assert x == lo + span ==> (x - lo) / span == 1.0 by {
      if x == lo + span {
        DivSelf(span);
      }
    }
    (x - lo) / span
  }

  lemma DivSelf(d: real)
    requires d != 0.0
    ensures d / d == 1.0
  {
  }

  lemma DivideOrder(a: real, b: real, d: real)
    requires 0.0 < d
    ensures a <= b <==> a / d <= b / d
    ensures a < b <==> a / d < b / d
  {
  }

  /** `Scale` keeps the order of its argument, in both directions. */
  lemma ScaleMonotone(x: real, y: real, lo: real, span: real)
    requires 0.0 < span
    ensures x <= y <==> Scale(x, lo, span) <= Scale(y, lo, span)
    ensures x < y <==> Scale(x, lo, span) < Scale(y, lo, span)
  {
    DivideOrder(x - lo, y - lo, span);
  }

  /** Where `x` lands when an image with minimum `lo` and maximum `hi` is
      normalised: its fraction of the way from `lo` to `hi`, or 0 when the
      image is constant. */
  function Normalized(x: real, lo: real, hi: real): real {
    if lo < hi then Scale(x - lo, 0.0, hi - lo) else 0.0
  }

  /** `normalize`: shift the minimum to 0, then divide by the new maximum
      when it is positive. A constant image becomes all zeros. */
  function Normalize(img: Image): (r: Image)
    requires NonEmpty(img)
    ensures SameShape(r, img) && NonEmpty(r)
    ensures forall i, j :: 0 <= i < |r| && 0 <= j < |r[i]| ==> 0.0 <= r[i][j] <= 1.0
    ensures GridMin(r) == 0.0
    ensures GridMin(img) < GridMax(img) ==> GridMax(r) == 1.0
    ensures GridMin(img) == GridMax(img) ==> forall i, j :: 0 <= i < |r| && 0 <= j < |r[i]| ==> r[i][j] == 0.0
    ensures forall i, j :: 0 <= i < |r| && 0 <= j < |r[i]| ==> r[i][j] == Normalized(img[i][j], GridMin(img), GridMax(img))
  {
    var s := ShiftToZero(img);
    if GridMax(s) > 0.0 then
      var r := DivideAll(s, GridMax(s));
      ScaledExtrema(s, GridMax(s), r);
      ClosedForm(img, s, r);
      r
    else
      ClosedForm(img, s, s);
      s
  }

  /** `img - img.min()`: the image shifted so that its minimum is 0. */
  function ShiftToZero(img: Image): (s: Image)
    requires NonEmpty(img)
    ensures SameShape(s, img) && NonEmpty(s)
    ensures forall i, j :: 0 <= i < |img| && 0 <= j < |img[i]| ==> s[i][j] == img[i][j] - GridMin(img)
    ensures GridMin(s) == 0.0 && GridMax(s) == GridMax(img) - GridMin(img)
  {
    var s := Pointwise(img, x => x - GridMin(img));
    ShiftedExtrema(img, GridMin(img), s);
    s
  }

  /** `s / hi` for a positive `hi`, pixel by pixel. */
  function DivideAll(s: Image, hi: real): (r: Image)
    requires 0.0 < hi
    ensures SameShape(r, s)
    ensures forall i, j :: 0 <= i < |s| && 0 <= j < |s[i]| ==> r[i][j] == Scale(s[i][j], 0.0, hi)
  {
    Pointwise(s, x => Scale(x, 0.0, hi))
  }

  /** Both branches of `Normalize` agree with `Normalized` pixel by pixel. */
  lemma ClosedForm(img: Image, shifted: Image, r: Image)
    requires NonEmpty(img) && NonEmpty(shifted) && SameShape(shifted, img) && SameShape(r, img)
    requires forall i, j :: 0 <= i < |img| && 0 <= j < |img[i]| ==> shifted[i][j] == img[i][j] - GridMin(img)
    requires GridMax(shifted) == GridMax(img) - GridMin(img)
    requires GridMax(shifted) > 0.0 ==>
      forall i, j :: 0 <= i < |img| && 0 <= j < |img[i]| ==> r[i][j] == Scale(shifted[i][j], 0.0, GridMax(shifted))
    requires GridMax(shifted) <= 0.0 ==> r == shifted
    ensures forall i, j :: 0 <= i < |r| && 0 <= j < |r[i]| ==> r[i][j] == Normalized(img[i][j], GridMin(img), GridMax(img))
  {
    forall i, j | 0 <= i < |r| && 0 <= j < |r[i]|
      ensures r[i][j] == Normalized(img[i][j], GridMin(img), GridMax(img))
    {
      assert GridMax(shifted) <= 0.0 ==> r[i][j] == shifted[i][j];
      ClosedFormPixel(img[i][j], GridMin(img), GridMax(img), shifted[i][j], GridMax(shifted), r[i][j]);
    }
  }

  /** One pixel of `ClosedForm`: `x` in [lo, hi], shifted to `s = x - lo`
      and scaled by the shifted maximum `m = hi - lo` when it is positive. */
  lemma ClosedFormPixel(x: real, lo: real, hi: real, s: real, m: real, v: real)
    requires lo <= x <= hi && s == x - lo && m == hi - lo
    requires m > 0.0 ==> v == Scale(s, 0.0, m)
    requires m <= 0.0 ==> v == s
    ensures v == Normalized(x, lo, hi)
  {
  }

  /** Shifting every pixel by `-lo` shifts the minimum and the maximum by `-lo`. */
  lemma ShiftedExtrema(img: Image, lo: real, shifted: Image)
    requires NonEmpty(img)
    requires SameShape(shifted, img)
    requires forall i, j :: 0 <= i < |img| && 0 <= j < |img[i]| ==> shifted[i][j] == img[i][j] - lo
    ensures NonEmpty(shifted)
    ensures GridMin(shifted) == GridMin(img) - lo
    ensures GridMax(shifted) == GridMax(img) - lo
  {
    SameShapeNonEmpty(shifted, img);
    var m := GridMin(img);
    var i0, j0 :| 0 <= i0 < |img| && 0 <= j0 < |img[i0]| && img[i0][j0] == m;
    MinUnique(shifted, m - lo, i0, j0);
    var n := GridMax(img);
    var i1, j1 :| 0 <= i1 < |img| && 0 <= j1 < |img[i1]| && img[i1][j1] == n;
    MaxUnique(shifted, n - lo, i1, j1);
  }

  /** Dividing an image with minimum 0 and maximum `hi > 0` by `hi` gives
      values in [0, 1] with minimum 0 and maximum 1. */
  lemma ScaledExtrema(s: Image, hi: real, r: Image)
    requires NonEmpty(s) && GridMin(s) == 0.0 && GridMax(s) == hi && 0.0 < hi
    requires SameShape(r, s)
    requires forall i, j :: 0 <= i < |s| && 0 <= j < |s[i]| ==> r[i][j] == Scale(s[i][j], 0.0, hi)
    ensures NonEmpty(r)
    ensures forall i, j :: 0 <= i < |r| && 0 <= j < |r[i]| ==> 0.0 <= r[i][j] <= 1.0
    ensures GridMin(r) == 0.0 && GridMax(r) == 1.0
  {
    SameShapeNonEmpty(r, s);
    var i0, j0 :| 0 <= i0 < |s| && 0 <= j0 < |s[i0]| && s[i0][j0] == 0.0;
    MinUnique(r, 0.0, i0, j0);
    var i1, j1 :| 0 <= i1 < |s| && 0 <= j1 < |s[i1]| && s[i1][j1] == hi;
    MaxUnique(r, 1.0, i1, j1);
  }

  /** `Normalized` never reverses the order of two values, and when
      `lo < hi` it keeps strict order in both directions. */
  lemma NormalizedMonotone(x: real, y: real, lo: real, hi: real)
    ensures x <= y ==> Normalized(x, lo, hi) <= Normalized(y, lo, hi)
    ensures lo < hi ==> (x < y <==> Normalized(x, lo, hi) < Normalized(y, lo, hi))
  {
    if lo < hi {
      ScaleMonotone(x - lo, y - lo, 0.0, hi - lo);
    }
  }

  /** `Normalize` never reverses the order of two pixels, and on a
      non-constant image it keeps strict order in both directions. */
  lemma NormalizeMonotone(img: Image, i: nat, j: nat, k: nat, l: nat)
    requires NonEmpty(img)
    requires i < |img| && j < |img[i]| && k < |img| && l < |img[k]|
    ensures img[i][j] <= img[k][l] ==> Normalize(img)[i][j] <= Normalize(img)[k][l]
    ensures GridMin(img) < GridMax(img) ==>
      (img[i][j] < img[k][l] <==> Normalize(img)[i][j] < Normalize(img)[k][l])
  {
    NormalizedMonotone(img[i][j], img[k][l], GridMin(img), GridMax(img));
  }

  /** Normalising twice is the same as normalising once. */
  lemma NormalizeIdempotent(img: Image)
    requires NonEmpty(img)
    ensures Normalize(Normalize(img)) == Normalize(img)
  {
    var r := Normalize(img);
    if GridMin(img) == GridMax(img) {
      MaxUnique(r, 0.0, 0, 0);
    }
    NormalizeFixes(r);
  }

  /** An image already spanning [0, 1], or all zeros, is its own
      normalisation. */
  lemma NormalizeFixes(r: Image)
    requires NonEmpty(r) && GridMin(r) == 0.0 && (GridMax(r) == 1.0 || GridMax(r) == 0.0)
    ensures Normalize(r) == r
  {
    var rr := Normalize(r);
    forall i, j | 0 <= i < |rr| && 0 <= j < |rr[i]|
      ensures rr[i][j] == r[i][j]
    {
      NormalizedFixed(r[i][j], GridMin(r), GridMax(r));
    }
    PixelwiseEqual(rr, r);
  }

  /** On an image with minimum 0 and maximum 1, or one of all zeros,
      `Normalized` is the identity. */
  lemma NormalizedFixed(x: real, lo: real, hi: real)
    requires lo == 0.0 && (hi == 1.0 || hi == 0.0)
    requires lo <= x <= hi
    ensures Normalized(x, lo, hi) == x
  {
  }

  /** The element-wise difference `a - b` of two images of one shape. */
  function Subtract(a: Image, b: Image): (r: Image)
    requires SameShape(a, b)
    ensures SameShape(r, a)
    ensures forall i, j :: 0 <= i < |a| && 0 <= j < |a[i]| ==> r[i][j] == a[i][j] - b[i][j]
  {
    seq(|a|, i requires 0 <= i < |a| =>
      seq(|a[i]|, j requires 0 <= j < |a[i]| => a[i][j] - b[i][j]))
  }

  /** `remove_background`, given the blurred copy of the image: the
      difference image shifted so that its minimum is 0. Only the shift is
      added, so differences between pixels are those of `image - blurred`. */
  function RemoveBackground(img: Image, blurred: Image): (r: Image)
    requires NonEmpty(img) && SameShape(blurred, img)
    ensures SameShape(r, img) && NonEmpty(r)
    ensures GridMin(r) == 0.0
    ensures forall i, j :: 0 <= i < |r| && 0 <= j < |r[i]| ==> 0.0 <= r[i][j]
    ensures forall i, j, k, l :: 0 <= i < |r| && 0 <= j < |r[i]| && 0 <= k < |r| && 0 <= l < |r[k]| ==>
      r[i][j] - r[k][l] == (img[i][j] - blurred[i][j]) - (img[k][l] - blurred[k][l])
  {
    var corrected := Subtract(img, blurred);
    var lo := GridMin(corrected);
    var r := Pointwise(corrected, x => x - lo);
    var i0, j0 :| 0 <= i0 < |corrected| && 0 <= j0 < |corrected[i0]| && corrected[i0][j0] == lo;
    MinUnique(r, 0.0, i0, j0);
    r
  }

  /** `gaussian` returns an image of the shape it is given, as
      `gaussian_filter` does. */
  ghost predicate ShapePreserving(gaussian: (Image, real) -> Image) {
    forall im, sigma :: NonEmpty(im) ==> SameShape(gaussian(im, sigma), im)
  }

  /** The image the pipeline works on: the region of interest when one is
      given, else the whole image. */
  function Region(img: Image, roi: Option<Roi>): (r: Image)
    requires Rect(img)
    requires roi.Some? ==> InBounds(roi.value, |img|, Cols(img))
    ensures roi.None? ==> r == img
    ensures roi.Some? ==> r == Crop(img, roi.value)
  {
    if roi.Some? then Crop(img, roi.value) else img
  }

  /** The region is non-empty: `img.min()` on an empty array raises. */
  predicate RegionNonEmpty(img: Image, roi: Option<Roi>)
    requires Rect(img)
  {
    match roi
    case None => NonEmpty(img)
    case Some(q) => InBounds(q, |img|, Cols(img)) && q.x1 < q.x2 && q.y1 < q.y2
  }

  /** `background_sigma` is truthy: present and non-zero. */
  predicate Truthy(sigma: Option<real>) {
    sigma.Some? && sigma.value != 0.0
  }

  /** The region of a valid request is a non-empty image. */
  lemma RegionIsNonEmpty(img: Image, roi: Option<Roi>)
    requires Rect(img) && RegionNonEmpty(img, roi)
    ensures NonEmpty(Region(img, roi))
  {
  }

  /** The background step of `preprocess_image`: runs only when
      `backgroundSigma` is truthy, blurring with that sigma. */
  function Background(c: Image, backgroundSigma: Option<real>, gaussian: (Image, real) -> Image): (b: Image)
    requires NonEmpty(c) && ShapePreserving(gaussian)
    ensures SameShape(b, c) && NonEmpty(b)
    ensures !Truthy(backgroundSigma) ==> b == c
  {
    if Truthy(backgroundSigma) then RemoveBackground(c, gaussian(c, backgroundSigma.value)) else c
  }

  /** The smoothing step of `preprocess_image`: runs only when
      `gaussianSigma > 0`. */
  function Smooth(b: Image, gaussianSigma: real, gaussian: (Image, real) -> Image): (g: Image)
    requires NonEmpty(b) && ShapePreserving(gaussian)
    ensures SameShape(g, b) && NonEmpty(g)
    ensures gaussianSigma <= 0.0 ==> g == b
  {
    if gaussianSigma > 0.0 then
      var g := gaussian(b, gaussianSigma);
      SameShapeNonEmpty(g, b);
      g
    else b
  }

  lemma SameShapeTrans(a: Image, b: Image, c: Image)
    requires SameShape(a, b) && SameShape(b, c)
    ensures SameShape(a, c)
  {
  }

  /** `preprocess_image`: crop to the region of interest, subtract the
      background when `backgroundSigma` is truthy, blur when
      `gaussianSigma > 0`, and normalise. The result has the region's shape,
      lies in [0, 1] and has minimum 0. */
  function PreprocessImage(img: Image, gaussianSigma: real, backgroundSigma: Option<real>,
                           roi: Option<Roi>, gaussian: (Image, real) -> Image): (r: Image)
    requires Rect(img) && RegionNonEmpty(img, roi)
    requires ShapePreserving(gaussian)
    ensures SameShape(r, Region(img, roi)) && NonEmpty(r)
    ensures forall i, j :: 0 <= i < |r| && 0 <= j < |r[i]| ==> 0.0 <= r[i][j] <= 1.0
    ensures GridMin(r) == 0.0
  {
    var c := Region(img, roi);
    RegionIsNonEmpty(img, roi);
    var b := Background(c, backgroundSigma, gaussian);
    var g := Smooth(b, gaussianSigma, gaussian);
    var r := Normalize(g);
    SameShapeTrans(r, g, b);
    SameShapeTrans(r, b, c);
    r
  }

  /** The filters run only when asked for: without a truthy background sigma
      and a positive Gaussian sigma the result is the normalised region,
      which for a region of interest is the normalised crop. */
  lemma PreprocessWithoutFilters(img: Image, gaussianSigma: real, backgroundSigma: Option<real>,
                                 roi: Option<Roi>, gaussian: (Image, real) -> Image)
    requires Rect(img) && RegionNonEmpty(img, roi)
    requires ShapePreserving(gaussian)
    requires !Truthy(backgroundSigma) && gaussianSigma <= 0.0
    ensures roi.None? ==> PreprocessImage(img, gaussianSigma, backgroundSigma, roi, gaussian) == Normalize(img)
    ensures roi.Some? ==> PreprocessImage(img, gaussianSigma, backgroundSigma, roi, gaussian) == Normalize(Crop(img, roi.value))
  {
    RegionIsNonEmpty(img, roi);
  }

  /** With only background removal asked for, the result is the normalised
      background-corrected region. */
  lemma PreprocessBackgroundOnly(img: Image, gaussianSigma: real, backgroundSigma: Option<real>,
                                 roi: Option<Roi>, gaussian: (Image, real) -> Image)
    requires Rect(img) && RegionNonEmpty(img, roi)
    requires ShapePreserving(gaussian)
    requires Truthy(backgroundSigma) && gaussianSigma <= 0.0
    ensures var c := Region(img, roi);
      PreprocessImage(img, gaussianSigma, backgroundSigma, roi, gaussian)
        == Normalize(RemoveBackground(c, gaussian(c, backgroundSigma.value)))
  {
    RegionIsNonEmpty(img, roi);
  }

  /** With only smoothing asked for, the result is the normalised blurred
      region. */
  lemma PreprocessSmoothOnly(img: Image, gaussianSigma: real, backgroundSigma: Option<real>,
                             roi: Option<Roi>, gaussian: (Image, real) -> Image)
    requires Rect(img) && RegionNonEmpty(img, roi)
    requires ShapePreserving(gaussian)
    requires !Truthy(backgroundSigma) && gaussianSigma > 0.0
    ensures PreprocessImage(img, gaussianSigma, backgroundSigma, roi, gaussian)
        == Normalize(gaussian(Region(img, roi), gaussianSigma))
  {
    RegionIsNonEmpty(img, roi);
  }

  /** With both filters asked for, the background is removed first and the
      corrected region is then blurred before normalising. */
  lemma PreprocessBothFilters(img: Image, gaussianSigma: real, backgroundSigma: Option<real>,
                              roi: Option<Roi>, gaussian: (Image, real) -> Image)
    requires Rect(img) && RegionNonEmpty(img, roi)
    requires ShapePreserving(gaussian)
    requires Truthy(backgroundSigma) && gaussianSigma > 0.0
    ensures var c := Region(img, roi);
      PreprocessImage(img, gaussianSigma, backgroundSigma, roi, gaussian)
        == Normalize(gaussian(RemoveBackground(c, gaussian(c, backgroundSigma.value)), gaussianSigma))
  {
    RegionIsNonEmpty(img, roi);
  }
}

=== FILE: reals.dfy ===
/** Sums, means, extrema, square roots and evenly spaced samples over reals:
    the numpy reductions (`np.sum`, `np.mean`, `np.min`, `np.max`),
    `np.sqrt` and `np.linspace` that the analysis code relies on, with exact
    arithmetic. */
module Reals {

  // Small facts of ordered-field arithmetic, kept apart so that each proof
  // that needs one states it in a context the solver handles quickly.

  lemma MulPos(a: real, b: real)
    requires 0.0 < a && 0.0 < b
    ensures 0.0 < a * b
  {
  }

  lemma MulMono(w: real, a: real, b: real)
    requires 0.0 <= w && a <= b
    ensures w * a <= w * b
  {
  }

  /** Equal factors give equal products. The solver does not always see
      this for products whose factors are equal only through equations. */
  lemma MulCongruence(x1: real, y1: real, x2: real, y2: real)
    requires x1 == x2 && y1 == y2
    ensures x1 * y1 == x2 * y2
  {
  }

  /** A product, with the sign rules stated on the product term itself so
      that they carry over to any two factors a caller substitutes. */
  function Prod(a: real, b: real): (r: real)
    ensures 0.0 < a && 0.0 < b ==> 0.0 < r
    ensures a < 0.0 && b < 0.0 ==> 0.0 < r
    ensures a == 0.0 || b == 0.0 ==> r == 0.0
  {
    a * b
  }

  /** The square of `a`: never negative, and zero only at zero. */
  function Sq(a: real): (r: real)
    ensures 0.0 <= r
    ensures r == 0.0 <==> a == 0.0
  {
    Prod(a, a)
  }

  /** On the non-negative reals, squaring keeps the order. */
  lemma SqMono(a: real, b: real)
    requires 0.0 <= a <= b
    ensures Sq(a) <= Sq(b)
  {
    if a < b {
      assert Sq(b) - Sq(a) == Prod(b - a, b + a);
    }
  }

  /** On the non-negative reals, equal squares have equal bases. */
  lemma SquareInjective(r: real, y: real)
    requires 0.0 <= r && 0.0 <= y && Sq(r) == Sq(y)
    ensures r == y
  {
    if r < y {
      MulPos(y - r, y + r);
    } else if r > y {
      MulPos(r - y, r + y);
    }
  }

  lemma DivTimes(s: real, n: real)
    requires n != 0.0
    ensures s / n * n == s
  {
  }

  lemma QuotientOfProduct(x: real, n: real, s: real)
    requires n != 0.0 && n * x == s
    ensures x == s / n
  {
  }

  /** One step of a weighted-sum induction: adding a term `w * v` with
      `w >= 0` and `lo <= v <= hi` keeps the sum between the scaled bounds. */
  lemma WeightedStep(w: real, v: real, lo: real, hi: real, s: real, d: real, total: real, dot: real)
    requires 0.0 <= w && lo <= v <= hi
    requires Prod(lo, s) <= d <= Prod(hi, s)
    requires total == w + s && dot == w * v + d
    ensures Prod(lo, total) <= dot <= Prod(hi, total)
  {
    MulMono(w, lo, v);
    MulMono(w, v, hi);
    ProdSplit(lo, w, s, total);
    ProdSplit(hi, w, s, total);
    assert Prod(lo, total) <= w * v + Prod(lo, s) <= dot;
    assert dot <= w * v + Prod(hi, s) <= Prod(hi, total);
  }

  /** `a (w + s) == w a + a s`, with the products kept as `Prod`. */
  lemma ProdSplit(a: real, w: real, s: real, total: real)
    requires total == w + s
    ensures Prod(a, total) == w * a + Prod(a, s)
  {
    assert Prod(a, total) == a * (w + s) && Prod(a, s) == a * s;
  }

  lemma DivideBounds(total: real, n: real, lo: real, hi: real)
    requires 0.0 < n
    requires n * lo <= total <= n * hi
    ensures lo <= total / n <= hi
  {
  }

  /** `sqrt` is the non-negative square root on the non-negative reals, as
      `np.sqrt`, `np.hypot` and `np.linalg.norm` use it. */
  ghost predicate IsSqrt(sqrt: real -> real) {
    forall s :: 0.0 <= s ==> 0.0 <= sqrt(s) && Sq(sqrt(s)) == s
  }

  /** The square root of a square is the non-negative base. */
  lemma SqrtOfSquare(sqrt: real -> real, y: real)
    requires IsSqrt(sqrt)
    requires 0.0 <= y
    ensures sqrt(Sq(y)) == y
  {
    SquareInjective(sqrt(Sq(y)), y);
  }

  /** The square root is zero exactly at zero, and positive elsewhere. */
  lemma SqrtPositive(sqrt: real -> real, s: real)
    requires IsSqrt(sqrt)
    requires 0.0 <= s
    ensures sqrt(s) == 0.0 <==> s == 0.0
    ensures 0.0 < sqrt(s) <==> 0.0 < s
  {
    assert 0.0 <= sqrt(s) && Sq(sqrt(s)) == s;
  }

  function Sum(s: seq<real>): real {
    if |s| == 0 then 0.0 else s[0] + Sum(s[1..])
  }

  function Mean(s: seq<real>): real
    requires |s| > 0
  {
    Sum(s) / |s| as real
  }

  /** The mean times the count gives back the sum. */
  lemma MeanTimesCount(s: seq<real>)
    requires |s| > 0
    ensures Mean(s) * |s| as real == Sum(s)
  {
    DivTimes(Sum(s), |s| as real);
  }

  function Min(a: real, b: real): real {
    if a <= b then a else b
  }

  function Max(a: real, b: real): real {
    if a <= b then b else a
  }

  /** The smallest element: it occurs in `s` and bounds every element from below. */
  function MinOf(s: seq<real>): (m: real)
    requires |s| > 0
    ensures m in s
    ensures forall i :: 0 <= i < |s| ==> m <= s[i]
  {
    if |s| == 1 then s[0] else Min(s[0], MinOf(s[1..]))
  }

  /** The largest element: it occurs in `s` and bounds every element from above. */
  function MaxOf(s: seq<real>): (m: real)
    requires |s| > 0
    ensures m in s
    ensures forall i :: 0 <= i < |s| ==> s[i] <= m
  {
    if |s| == 1 then s[0] else Max(s[0], MaxOf(s[1..]))
  }

  /** The smallest element is at most the largest. */
  lemma MinAtMostMax(s: seq<real>)
    requires |s| > 0
    ensures MinOf(s) <= MaxOf(s)
  {
    assert MinOf(s) <= s[0] <= MaxOf(s);
  }

  /** Element-wise bounds carry over to the sum, scaled by the length. */
  lemma {:induction false} SumBounds(s: seq<real>, lo: real, hi: real)
    requires forall i :: 0 <= i < |s| ==> lo <= s[i] <= hi
    ensures |s| as real * lo <= Sum(s) <= |s| as real * hi
  {
    if |s| > 0 {
      SumBounds(s[1..], lo, hi);
      assert |s| as real * lo == lo + (|s| - 1) as real * lo;
      assert |s| as real * hi == hi + (|s| - 1) as real * hi;
    }
  }

  /** Every element bounded by `lo` and `hi` keeps the mean between them. */
  lemma MeanBounds(s: seq<real>, lo: real, hi: real)
    requires |s| > 0
    requires forall i :: 0 <= i < |s| ==> lo <= s[i] <= hi
    ensures lo <= Mean(s) <= hi
  {
    SumBounds(s, lo, hi);
    DivideBounds(Sum(s), |s| as real, lo, hi);
  }

  /** The mean lies between the smallest and the largest element. */
  lemma MeanBetween(s: seq<real>)
    requires |s| > 0
    ensures MinOf(s) <= Mean(s) <= MaxOf(s)
  {
    MeanBounds(s, MinOf(s), MaxOf(s));
  }

  /** The mean of a constant sequence is that constant. */
  lemma MeanOfConstant(s: seq<real>, c: real)
    requires |s| > 0
    requires forall i :: 0 <= i < |s| ==> s[i] == c
    ensures Mean(s) == c
  {
    MeanBounds(s, c, c);
  }

  /** The mean of positive values is positive. */
  lemma MeanPositive(s: seq<real>)
    requires |s| > 0
    requires forall i :: 0 <= i < |s| ==> 0.0 < s[i]
    ensures 0.0 < Mean(s)
  {
    MeanBetween(s);
  }

  /** `Sum(ws[i] * vs[i])`, the numerator of a weighted average. */
  function Dot(ws: seq<real>, vs: seq<real>): real
    requires |ws| == |vs|
  {
    if |ws| == 0 then 0.0 else ws[0] * vs[0] + Dot(ws[1..], vs[1..])
  }

  /** With non-negative weights, bounds on the values bound the weighted sum. */
  lemma {:induction false} DotBounds(ws: seq<real>, vs: seq<real>, lo: real, hi: real)
    requires |ws| == |vs|
    requires forall i :: 0 <= i < |ws| ==> 0.0 <= ws[i]
    requires forall i :: 0 <= i < |vs| ==> lo <= vs[i] <= hi
    ensures Prod(lo, Sum(ws)) <= Dot(ws, vs) <= Prod(hi, Sum(ws))
  {
    if |ws| > 0 {
      assert forall i :: 0 <= i < |ws[1..]| ==> ws[1..][i] == ws[i + 1];
      assert forall i :: 0 <= i < |vs[1..]| ==> vs[1..][i] == vs[i + 1];
      DotBounds(ws[1..], vs[1..], lo, hi);
      WeightedStep(ws[0], vs[0], lo, hi, Sum(ws[1..]), Dot(ws[1..], vs[1..]), Sum(ws), Dot(ws, vs));
    }
  }

  /** Positive weights have a positive sum. */
  lemma {:induction false} SumPositive(ws: seq<real>)
    requires |ws| > 0
    requires forall i :: 0 <= i < |ws| ==> 0.0 < ws[i]
    ensures 0.0 < Sum(ws)
  {
    if |ws| > 1 {
      SumPositive(ws[1..]);
    }
  }

  /** `Sum(ws * vs) / Sum(ws)`: an average of `vs` with positive weights `ws`.
      It is a convex combination, so it lies between the extreme values. */
  function WeightedMean(ws: seq<real>, vs: seq<real>): (r: real)
    requires |ws| == |vs| > 0
    requires forall i :: 0 <= i < |ws| ==> 0.0 < ws[i]
    ensures MinOf(vs) <= r <= MaxOf(vs)
    ensures 0.0 < Sum(ws) && Prod(r, Sum(ws)) == Dot(ws, vs)
  {
    WeightedSumBounds(ws, vs);
    QuotientBetween(Dot(ws, vs), Sum(ws), MinOf(vs), MaxOf(vs));
    Dot(ws, vs) / Sum(ws)
  }

  /** Positive weights have a positive sum, and the weighted sum lies
      between the smallest and the largest value times that sum. */
  lemma WeightedSumBounds(ws: seq<real>, vs: seq<real>)
    requires |ws| == |vs| > 0
    requires forall i :: 0 <= i < |ws| ==> 0.0 < ws[i]
    ensures 0.0 < Sum(ws) && Prod(MinOf(vs), Sum(ws)) <= Dot(ws, vs) <= Prod(MaxOf(vs), Sum(ws))
  {
    SumPositive(ws);
    DotBounds(ws, vs, MinOf(vs), MaxOf(vs));
  }

  /** A total between `lo n` and `hi n` divided by `n > 0` lies between
      `lo` and `hi`, and multiplying back by `n` restores it. */
  lemma QuotientBetween(t: real, n: real, lo: real, hi: real)
    requires 0.0 < n && Prod(lo, n) <= t <= Prod(hi, n)
    ensures lo <= t / n <= hi && Prod(t / n, n) == t
  {
    DivideBounds(t, n, lo, hi);
    DivTimes(t, n);
  }

  /** Equal weights `c` make the weighted sum `c` times the plain sum and
      the weights' sum `c` times the count. */
  lemma {:induction false} DotOfConstant(ws: seq<real>, vs: seq<real>, c: real)
    requires |ws| == |vs|
    requires forall i :: 0 <= i < |ws| ==> ws[i] == c
    ensures Dot(ws, vs) == Prod(c, Sum(vs)) && Sum(ws) == Prod(|ws| as real, c)
  {
    if |ws| > 0 {
      assert forall i :: 0 <= i < |ws[1..]| ==> ws[1..][i] == ws[i + 1];
      DotOfConstant(ws[1..], vs[1..], c);
      assert Prod(c, Sum(vs)) == c * vs[0] + Prod(c, Sum(vs[1..]));
      assert Prod(|ws| as real, c) == c + Prod(|ws[1..]| as real, c);
    }
  }

  /** With equal weights the weighted mean is the plain mean. */
  lemma EqualWeightsMean(ws: seq<real>, vs: seq<real>, c: real)
    requires |ws| == |vs| > 0 && 0.0 < c
    requires forall i :: 0 <= i < |ws| ==> ws[i] == c
    ensures WeightedMean(ws, vs) == Mean(vs)
  {
    DotOfConstant(ws, vs, c);
    CancelFactor(Sum(vs), |vs| as real, c);
  }

  /** A common positive factor cancels from a quotient. */
  lemma CancelFactor(s: real, n: real, c: real)
    requires 0.0 < n && 0.0 < c
    ensures Prod(c, s) / Prod(n, c) == s / n
  {
    assert Prod(c, s) == c * s && Prod(n, c) == n * c;
  }

  /** The fraction `i / m` of the way along `np.linspace`, in [0, 1]. */
  lemma FractionInUnit(i: real, m: real)
    requires 0.0 <= i <= m && 0.0 < m
    ensures 0.0 <= i / m <= 1.0
  {
  }

  /** `lo + t * (hi - lo)` with `t` in [0, 1] stays between `lo` and `hi`. */
  lemma LerpBetween(lo: real, hi: real, t: real)
    requires lo <= hi && 0.0 <= t <= 1.0
    ensures lo <= lo + t * (hi - lo) <= hi
  {
    MulMono(hi - lo, t, 1.0);
    MulMono(hi - lo, 0.0, t);
  }

  /** The `i`-th of `n >= 2` samples from `lo` to `hi`. */
  function LinspaceAt(lo: real, hi: real, n: nat, i: nat): real
    requires n >= 2
  {
    lo + i as real / (n - 1) as real * (hi - lo)
  }

  lemma LinspaceAtFacts(lo: real, hi: real, n: nat, i: nat)
    requires n >= 2 && i < n
    ensures i == 0 ==> LinspaceAt(lo, hi, n, i) == lo
    ensures i == n - 1 ==> LinspaceAt(lo, hi, n, i) == hi
    ensures lo <= hi ==> lo <= LinspaceAt(lo, hi, n, i) <= hi
  {
    var m := (n - 1) as real;
    if i == n - 1 {
      assert i as real / m == 1.0;
    }
    if lo <= hi {
      FractionInUnit(i as real, m);
      LerpBetween(lo, hi, i as real / m);
    }
  }

  /** `np.linspace(lo, hi, n)`: `n` evenly spaced samples from `lo` to `hi`
      inclusive; a single sample is `lo`. */
  function Linspace(lo: real, hi: real, n: nat): (r: seq<real>)
    ensures |r| == n
    ensures n >= 1 ==> r[0] == lo
    ensures n >= 2 ==> r[n - 1] == hi
    ensures lo <= hi ==> forall i :: 0 <= i < n ==> lo <= r[i] <= hi
  {
    if n <= 1 then seq(n, i => lo)
    else
      var r := seq(n, i requires 0 <= i < n => LinspaceAt(lo, hi, n, i));
      assert forall i :: 0 <= i < n ==> r[i] == LinspaceAt(lo, hi, n, i);
      LinspaceAtFacts(lo, hi, n, 0);
      LinspaceAtFacts(lo, hi, n, n - 1);
      assert lo <= hi ==> forall i :: 0 <= i < n ==> lo <= r[i] <= hi by {
        forall i | 0 <= i < n {
          LinspaceAtFacts(lo, hi, n, i);
        }
      }
      r
  }

  /** Consecutive samples of `Linspace` are `(hi - lo) / (n - 1)` apart, so
      for `lo <= hi` the samples never decrease. */
  lemma LinspaceStep(lo: real, hi: real, n: nat, i: nat)
    requires i + 1 < n
    ensures Linspace(lo, hi, n)[i + 1] - Linspace(lo, hi, n)[i] == (hi - lo) / (n - 1) as real
  {
    var m := (n - 1) as real;
    assert (i + 1) as real / m - i as real / m == 1.0 / m;
  }
}

=== FILE: sorting.dfy ===
/** Ordering a sequence by a real-valued key: the model of the sorts hidden
    inside `np.argpartition` (which cells are the largest) and `np.median`
    (the middle of the sorted values). Exact reals have no NaN, so the order
    is total. */
module Sorting {

  /** `s` lists its elements in non-decreasing order of `key`. */
  predicate SortedBy<T>(key: T -> real, s: seq<T>) {
    forall i, j :: 0 <= i < j < |s| ==> key(s[i]) <= key(s[j])
  }

  /** Inserts `x` into the sorted `s`, before the first element whose key is
      not smaller. */
  function Insert<T>(key: T -> real, x: T, s: seq<T>): (r: seq<T>)
    requires SortedBy(key, s)
    ensures SortedBy(key, r)
    ensures multiset(r) == multiset(s) + multiset{x}
    ensures |r| == |s| + 1
    ensures forall i :: 0 <= i < |r| ==> r[i] == x || r[i] in s
  {
    if |s| == 0 then [x]
    else if key(x) <= key(s[0]) then
      InsertFront(key, x, s);
      [x] + s
    else
      var rest := Insert(key, x, s[1..]);
      InsertAfter(key, x, s, rest);
      [s[0]] + rest
  }

  /** `x` placed before a sorted `s` whose head is not smaller. */
  lemma InsertFront<T>(key: T -> real, x: T, s: seq<T>)
    requires SortedBy(key, s) && |s| > 0 && key(x) <= key(s[0])
    ensures SortedBy(key, [x] + s)
    ensures multiset([x] + s) == multiset(s) + multiset{x}
  {
    var r := [x] + s;
    forall i, j | 0 <= i < j < |r|
      ensures key(r[i]) <= key(r[j])
    {
      if i > 0 {
        assert r[i] == s[i - 1] && r[j] == s[j - 1];
      } else {
        assert r[j] == s[j - 1];
        assert key(s[0]) <= key(s[j - 1]);
      }
    }
  }

  /** The head of `s`, smaller than `x`, placed before `x` inserted into the
      rest of `s`. */
  lemma InsertAfter<T>(key: T -> real, x: T, s: seq<T>, rest: seq<T>)
    requires SortedBy(key, s) && |s| > 0 && key(s[0]) < key(x)
    requires SortedBy(key, rest) && multiset(rest) == multiset(s[1..]) + multiset{x}
    requires forall i :: 0 <= i < |rest| ==> rest[i] == x || rest[i] in s[1..]
    ensures SortedBy(key, [s[0]] + rest)
    ensures multiset([s[0]] + rest) == multiset(s) + multiset{x}
    ensures forall i :: 0 <= i < |rest| + 1 ==> ([s[0]] + rest)[i] == x || ([s[0]] + rest)[i] in s
  {
    assert s == [s[0]] + s[1..];
    var r := [s[0]] + rest;
    forall i | 0 <= i < |rest|
      ensures key(s[0]) <= key(rest[i])
    {
      if rest[i] != x {
        var k :| 0 <= k < |s[1..]| && s[1..][k] == rest[i];
        assert s[k + 1] == rest[i];
      }
    }
    forall i, j | 0 <= i < j < |r|
      ensures key(r[i]) <= key(r[j])
    {
      if i > 0 {
        assert r[i] == rest[i - 1] && r[j] == rest[j - 1];
      } else {
        assert r[j] == rest[j - 1];
      }
    }
    forall i | 0 <= i < |r|
      ensures r[i] == x || r[i] in s
    {
      if i > 0 {
        assert r[i] == rest[i - 1];
      }
    }
  }

  /** Insertion sort: a permutation of `s` in non-decreasing key order. */
  function SortBy<T>(key: T -> real, s: seq<T>): (r: seq<T>)
    ensures SortedBy(key, r)
    ensures multiset(r) == multiset(s)
    ensures |r| == |s|
  {
    if |s| == 0 then []
    else
      assert s == [s[0]] + s[1..];
      Insert(key, s[0], SortBy(key, s[1..]))
  }

  /** Every element of a permutation of `s` occurs in `s`. */
  lemma PermutationMembers<T>(r: seq<T>, s: seq<T>)
    requires multiset(r) == multiset(s)
    ensures forall i :: 0 <= i < |r| ==> r[i] in s
  {
    forall i | 0 <= i < |r|
      ensures r[i] in s
    {
      assert r[i] in multiset(r);
    }
  }

  /** The indices `0, 1, ..., n - 1`. */
  function Range(n: nat): (r: seq<nat>)
    ensures |r| == n && forall i :: 0 <= i < n ==> r[i] == i
  {
    seq(n, i requires 0 <= i < n => i)
  }

  /** The key of index `i` in `vs`; indices outside `vs` never occur where it is used. */
  function At(vs: seq<real>): nat -> real {
    (i: nat) => if i < |vs| then vs[i] else 0.0
  }

  /** `np.argsort`: the indices of `vs` ordered by their values. */
  function Argsort(vs: seq<real>): (r: seq<nat>)
    ensures |r| == |vs|
    ensures multiset(r) == multiset(Range(|vs|))
    ensures forall i :: 0 <= i < |r| ==> r[i] < |vs|
    ensures forall i, j :: 0 <= i < j < |r| ==> vs[r[i]] <= vs[r[j]]
  {
    var r := SortBy<nat>(At(vs), Range(|vs|));
    PermutationMembers(r, Range(|vs|));
    assert forall i :: 0 <= i < |r| ==> r[i] < |vs| by {
      forall i | 0 <= i < |r|
        ensures r[i] < |vs|
      {
        var k :| 0 <= k < |vs| && Range(|vs|)[k] == r[i];
      }
    }
    assert forall i, j :: 0 <= i < j < |r| ==> At(vs)(r[i]) <= At(vs)(r[j]);
    r
  }

  /** The values of `vs` in non-decreasing order. */
  function Sorted(vs: seq<real>): (r: seq<real>)
    ensures |r| == |vs|
    ensures multiset(r) == multiset(vs)
    ensures forall i, j :: 0 <= i < j < |r| ==> r[i] <= r[j]
  {
    var r := SortBy(x => x, vs);
    assert SortedBy(x => x, r);
    r
  }
}

=== FILE: stats.dfy ===
/** `compute_statistics`: summary statistics of a displacement field
    `(dx, dy)`, namely the count, the mean, population standard deviation,
    minimum, maximum and median of the magnitudes, the direction of the mean
    displacement, the circular standard deviation of the angles, and the
    magnitude summaries scaled to nanometres when a scale is known. The
    transcendental functions are parameters. */
module Stats {
  import opened Base
  import opened Reals
  import opened Sorting

  /** `arctan2`, `cos`, `sin` and `log`, taken as given. */
  datatype AngleFns = AngleFns(atan2: (real, real) -> real, cos: real -> real, sin: real -> real, ln: real -> real)

  /** The facts about the angle functions the lemmas rely on. */
  ghost predicate ValidAngleFns(f: AngleFns) {
    (forall a :: Sq(f.cos(a)) + Sq(f.sin(a)) == 1.0) && f.ln(1.0) == 0.0
  }

  /** The magnitude summaries in nanometres. The median has none. */
  datatype NmSummary = NmSummary(mean: real, std: real, min: real, max: real)

  /** The dictionary `compute_statistics` returns. The circular standard
      deviation is `None` where numpy gives infinity, when the mean unit
      vector of the angles is zero. */
  datatype Statistics = Statistics(
    count: nat,
    magnitudeMean: real, magnitudeStd: real, magnitudeMin: real, magnitudeMax: real, magnitudeMedian: real,
    angleMeanDeg: real, angleCircularStdDeg: Option<real>,
    nm: Option<NmSummary>)

  /** `np.degrees`. */
  function Degrees(x: real): real {
    x * 180.0 / Pi
  }

  /** `np.hypot(dx, dy)`: the length of each displacement. */
  function Magnitudes(dx: seq<real>, dy: seq<real>, sqrt: real -> real): (m: seq<real>)
    requires |dx| == |dy|
    requires IsSqrt(sqrt)
    ensures |m| == |dx|
    ensures forall i :: 0 <= i < |m| ==> 0.0 <= m[i] && Sq(m[i]) == Sq(dx[i]) + Sq(dy[i])
    ensures forall i :: 0 <= i < |m| ==> (m[i] == 0.0 <==> dx[i] == 0.0 && dy[i] == 0.0)
  {
    seq(|dx|, i requires 0 <= i < |dx| =>
      SqrtPositive(sqrt, Sq(dx[i]) + Sq(dy[i]));
      sqrt(Sq(dx[i]) + Sq(dy[i])))
  }

  /** The middle of a sequence, or the mean of its two middle entries when
      it has an even length. */
  function Middle(t: seq<real>): (r: real)
    requires |t| > 0
    ensures MinOf(t) <= r <= MaxOf(t)
  {
    var n := |t|;
    if n % 2 == 1 then t[n / 2]
    else (t[n / 2 - 1] + t[n / 2]) / 2.0
  }

  /** `np.median`: the middle of the sorted values. It lies between the
      smallest and the largest value. */
  function Median(s: seq<real>): (r: real)
    requires |s| > 0
    ensures MinOf(s) <= r <= MaxOf(s)
  {
    var t := Sorted(s);
    PermutationMembers(t, s);
    assert MinOf(t) in s && MaxOf(t) in s;
    Middle(t)
  }

  /** Two sorted sequences with the same elements are equal. */
  lemma {:induction false} SortedUnique(a: seq<real>, b: seq<real>)
    requires forall i, j :: 0 <= i < j < |a| ==> a[i] <= a[j]
    requires forall i, j :: 0 <= i < j < |b| ==> b[i] <= b[j]
    requires multiset(a) == multiset(b)
    ensures a == b
  {
    assert |a| == |multiset(a)| == |multiset(b)| == |b|;
    if |a| > 0 {
      SortedHeads(a, b);
      SortedTail(a);
      SortedTail(b);
      SortedUnique(a[1..], b[1..]);
      assert a == [a[0]] + a[1..] && b == [b[0]] + b[1..];
    }
  }

  /** Sorted sequences with the same elements start alike and agree on the
      elements of their tails. */
  lemma SortedHeads(a: seq<real>, b: seq<real>)
    requires forall i, j :: 0 <= i < j < |a| ==> a[i] <= a[j]
    requires forall i, j :: 0 <= i < j < |b| ==> b[i] <= b[j]
    requires multiset(a) == multiset(b) && |a| > 0
    ensures |b| > 0 && a[0] == b[0]
    ensures multiset(a[1..]) == multiset(b[1..])
  {
    assert a[0] in multiset(b) && b[0] in multiset(a);
    assert a[0] in b && b[0] in a;
    SortedFirstLeast(b, a[0]);
    SortedFirstLeast(a, b[0]);
    TailMultiset(a);
    TailMultiset(b);
  }

  /** The tail of a sorted sequence is sorted. */
  lemma SortedTail(s: seq<real>)
    requires forall i, j :: 0 <= i < j < |s| ==> s[i] <= s[j]
    requires |s| > 0
    ensures forall i, j :: 0 <= i < j < |s[1..]| ==> s[1..][i] <= s[1..][j]
  {
    forall i, j | 0 <= i < j < |s[1..]|
      ensures s[1..][i] <= s[1..][j]
    {
      assert s[1..][i] == s[i + 1] && s[1..][j] == s[j + 1];
    }
  }

  /** Dropping the head removes one copy of it. */
  lemma TailMultiset(s: seq<real>)
    requires |s| > 0
    ensures multiset(s[1..]) == multiset(s) - multiset{s[0]}
  {
    assert s == [s[0]] + s[1..];
  }

  /** The first entry of a sorted sequence is its least. */
  lemma SortedFirstLeast(s: seq<real>, x: real)
    requires forall i, j :: 0 <= i < j < |s| ==> s[i] <= s[j]
    requires x in s
    ensures s[0] <= x
  {
    var i :| 0 <= i < |s| && s[i] == x;
    if i > 0 {
      assert s[0] <= s[i];
    }
  }

  /** The median depends only on which values occur how often, not on
      their order. */
  lemma MedianPermutation(a: seq<real>, b: seq<real>)
    requires |a| > 0
    requires multiset(a) == multiset(b)
    ensures |b| > 0 && Median(a) == Median(b)
  {
    assert |a| == |multiset(a)| == |multiset(b)| == |b|;
    SortedUnique(Sorted(a), Sorted(b));
  }

  /** Of sorted values the median is the middle one, or the mean of the
      two middle ones when the count is even. */
  lemma MedianOfSorted(s: seq<real>)
    requires |s| > 0
    requires forall i, j :: 0 <= i < j < |s| ==> s[i] <= s[j]
    ensures |s| % 2 == 1 ==> Median(s) == s[|s| / 2]
    ensures |s| % 2 == 0 ==> Median(s) == (s[|s| / 2 - 1] + s[|s| / 2]) / 2.0
  {
    SortedUnique(Sorted(s), s);
  }

  /** The squared deviations from the mean. */
  function Deviations(s: seq<real>): (d: seq<real>)
    requires |s| > 0
    ensures |d| == |s| && forall i :: 0 <= i < |s| ==> d[i] == Sq(s[i] - Mean(s))
  {
    seq(|s|, i requires 0 <= i < |s| => Sq(s[i] - Mean(s)))
  }

  /** `np.std` with its default `ddof=0`: the square root of the mean
      squared deviation. */
  function Std(s: seq<real>, sqrt: real -> real): (r: real)
    requires |s| > 0
    requires IsSqrt(sqrt)
    ensures 0.0 <= r
    ensures Sq(r) == Mean(Deviations(s))
  {
    MeanBounds(Deviations(s), 0.0, MaxOf(Deviations(s)));
    sqrt(Mean(Deviations(s)))
  }

  /** A sum of non-negative terms is zero exactly when every term is. */
  lemma {:induction false} SumZero(s: seq<real>)
    requires forall i :: 0 <= i < |s| ==> 0.0 <= s[i]
    ensures Sum(s) == 0.0 <==> forall i :: 0 <= i < |s| ==> s[i] == 0.0
  {
    if |s| > 0 {
      SumZero(s[1..]);
      SumBounds(s[1..], 0.0, 0.0 + MaxOf(s));
      if Sum(s) == 0.0 {
        forall i | 0 <= i < |s|
          ensures s[i] == 0.0
        {
          if i > 0 {
            assert s[i] == s[1..][i - 1];
          }
        }
      }
    }
  }

  /** The standard deviation is zero exactly when all values are equal. */
  lemma StdZero(s: seq<real>, sqrt: real -> real)
    requires |s| > 0
    requires IsSqrt(sqrt)
    ensures Std(s, sqrt) == 0.0 <==> MinOf(s) == MaxOf(s)
  {
    VarianceZero(s);
    assert Sq(Std(s, sqrt)) == 0.0 <==> Std(s, sqrt) == 0.0;
    if MinOf(s) == MaxOf(s) {
      MeanOfConstant(s, MinOf(s));
    }
  }

  /** The mean squared deviation is zero exactly when every value is the
      mean. */
  lemma VarianceZero(s: seq<real>)
    requires |s| > 0
    ensures Mean(Deviations(s)) == 0.0 <==> forall i :: 0 <= i < |s| ==> s[i] == Mean(s)
  {
    var d := Deviations(s);
    SumZero(d);
    MeanTimesCount(d);
    assert forall i :: 0 <= i < |s| ==> (d[i] == 0.0 <==> s[i] == Mean(s));
  }

  /** `np.arctan2(dy, dx)` per displacement. */
  function Angles(dx: seq<real>, dy: seq<real>, f: AngleFns): (a: seq<real>)
    requires |dx| == |dy|
    ensures |a| == |dx| && forall i :: 0 <= i < |a| ==> a[i] == f.atan2(dy[i], dx[i])
  {
    seq(|dx|, i requires 0 <= i < |dx| => f.atan2(dy[i], dx[i]))
  }

  function Cosines(a: seq<real>, f: AngleFns): (c: seq<real>)
    ensures |c| == |a| && forall i :: 0 <= i < |a| ==> c[i] == f.cos(a[i])
  {
    seq(|a|, i requires 0 <= i < |a| => f.cos(a[i]))
  }

  function Sines(a: seq<real>, f: AngleFns): (c: seq<real>)
    ensures |c| == |a| && forall i :: 0 <= i < |a| ==> c[i] == f.sin(a[i])
  {
    seq(|a|, i requires 0 <= i < |a| => f.sin(a[i]))
  }

  /** `np.abs(np.mean(np.exp(1j * angles)))`: the length of the mean unit
      vector of the angles. */
  function Resultant(a: seq<real>, f: AngleFns, sqrt: real -> real): (r: real)
    requires |a| > 0
    requires IsSqrt(sqrt)
    ensures 0.0 <= r && Sq(r) == Sq(Mean(Cosines(a, f))) + Sq(Mean(Sines(a, f)))
  {
    sqrt(Sq(Mean(Cosines(a, f))) + Sq(Mean(Sines(a, f))))
  }

  /** `np.degrees(np.sqrt(-2 * np.log(R)))` for the resultant length R;
      `None` stands for the infinity numpy returns when R is zero. */
  function CircularStd(a: seq<real>, f: AngleFns, sqrt: real -> real): (r: Option<real>)
    requires |a| > 0
    requires IsSqrt(sqrt)
    ensures r.None? <==> Mean(Cosines(a, f)) == 0.0 && Mean(Sines(a, f)) == 0.0
  {
    var res := Resultant(a, f, sqrt);
    if res == 0.0 then None else Some(Degrees(sqrt(-2.0 * f.ln(res))))
  }

  /** Angles that all agree have zero circular spread. */
  lemma AlignedCircularStd(a: seq<real>, f: AngleFns, sqrt: real -> real, theta: real)
    requires |a| > 0
    requires IsSqrt(sqrt) && ValidAngleFns(f)
    requires forall i :: 0 <= i < |a| ==> a[i] == theta
    ensures CircularStd(a, f, sqrt) == Some(0.0)
  {
    MeanOfConstant(Cosines(a, f), f.cos(theta));
    MeanOfConstant(Sines(a, f), f.sin(theta));
    assert Sq(f.cos(theta)) + Sq(f.sin(theta)) == 1.0;
    SqrtOfSquare(sqrt, 1.0);
    assert Sq(1.0) == 1.0;
    assert Resultant(a, f, sqrt) == 1.0;
    SqrtOfSquare(sqrt, 0.0);
    assert Sq(0.0) == 0.0;
  }

  /** The magnitude summaries scaled by the pixel size. */
  function ScaleSummary(mean: real, std: real, min: real, max: real, nmPerPixel: Option<real>): (r: Option<NmSummary>)
    ensures r.Some? <==> nmPerPixel.Some?
    ensures r.Some? ==> var k := nmPerPixel.value;
      r.value.mean == Prod(mean, k) && r.value.std == Prod(std, k) && r.value.min == Prod(min, k) && r.value.max == Prod(max, k)
  {
    if nmPerPixel.None? then None
    else
      var k := nmPerPixel.value;
      Some(NmSummary(Prod(mean, k), Prod(std, k), Prod(min, k), Prod(max, k)))
  }

  /** `compute_statistics`. Every magnitude summary lies between the
      smallest and the largest magnitude, which are magnitudes of actual
      displacements and not negative; the spread is not negative; the
      nanometre values are present exactly when a scale is given. The
      inputs must be non-empty: numpy's minimum of an empty array raises. */
  function ComputeStatistics(dx: seq<real>, dy: seq<real>, nmPerPixel: Option<real>,
                             sqrt: real -> real, f: AngleFns): (st: Statistics)
    requires |dx| == |dy| > 0
    requires IsSqrt(sqrt)
    ensures st.count == |dx|
    ensures exists i :: 0 <= i < |dx| && Sq(st.magnitudeMin) == Sq(dx[i]) + Sq(dy[i])
    ensures exists i :: 0 <= i < |dx| && Sq(st.magnitudeMax) == Sq(dx[i]) + Sq(dy[i])
    ensures forall i :: 0 <= i < |dx| ==> Sq(st.magnitudeMin) <= Sq(dx[i]) + Sq(dy[i]) <= Sq(st.magnitudeMax)
    ensures 0.0 <= st.magnitudeMin <= st.magnitudeMean <= st.magnitudeMax
    ensures st.magnitudeMin <= st.magnitudeMedian <= st.magnitudeMax
    ensures st.magnitudeMean == Mean(Magnitudes(dx, dy, sqrt))
    ensures st.magnitudeMedian == Median(Magnitudes(dx, dy, sqrt))
    ensures 0.0 <= st.magnitudeStd && Sq(st.magnitudeStd) == Mean(Deviations(Magnitudes(dx, dy, sqrt)))
    ensures st.angleMeanDeg == Degrees(f.atan2(Mean(dy), Mean(dx)))
    ensures st.angleCircularStdDeg == CircularStd(Angles(dx, dy, f), f, sqrt)
    ensures st.angleCircularStdDeg.None? <==>
      Mean(Cosines(Angles(dx, dy, f), f)) == 0.0 && Mean(Sines(Angles(dx, dy, f), f)) == 0.0
    ensures st.nm.Some? <==> nmPerPixel.Some?
    ensures st.nm.Some? ==> st.nm.value.min == Prod(st.magnitudeMin, nmPerPixel.value) && st.nm.value.max == Prod(st.magnitudeMax, nmPerPixel.value)
    ensures st.nm.Some? ==> st.nm.value.mean == Prod(st.magnitudeMean, nmPerPixel.value) && st.nm.value.std == Prod(st.magnitudeStd, nmPerPixel.value)
  {
    var m := Magnitudes(dx, dy, sqrt);
    MeanBetween(m);
    SquaresBetween(m, dx, dy);
    var mean, std, min, max := Mean(m), Std(m, sqrt), MinOf(m), MaxOf(m);
    Statistics(
      |dx|, mean, std, min, max, Median(m),
      Degrees(f.atan2(Mean(dy), Mean(dx))),
      CircularStd(Angles(dx, dy, f), f, sqrt),
      ScaleSummary(mean, std, min, max, nmPerPixel))
  }

  /** The squared length of every displacement lies between the squares
      of the smallest and the largest magnitude. */
  lemma SquaresBetween(m: seq<real>, dx: seq<real>, dy: seq<real>)
    requires |m| == |dx| == |dy| > 0
    requires forall i :: 0 <= i < |m| ==> 0.0 <= m[i] && Sq(m[i]) == Sq(dx[i]) + Sq(dy[i])
    ensures forall i :: 0 <= i < |dx| ==> Sq(MinOf(m)) <= Sq(dx[i]) + Sq(dy[i]) <= Sq(MaxOf(m))
  {
    forall i | 0 <= i < |dx|
      ensures Sq(MinOf(m)) <= Sq(dx[i]) + Sq(dy[i]) <= Sq(MaxOf(m))
    {
      assert MinOf(m) in m;
      SqMono(MinOf(m), m[i]);
      SqMono(m[i], MaxOf(m));
    }
  }

  /** A field with no displacement has every magnitude summary zero, and
      its angles, all `atan2(0, 0)`, have zero circular spread. */
  lemma ZeroDisplacements(dx: seq<real>, dy: seq<real>, nmPerPixel: Option<real>, sqrt: real -> real, f: AngleFns)
    requires |dx| == |dy| > 0
    requires IsSqrt(sqrt)
    requires forall i :: 0 <= i < |dx| ==> dx[i] == 0.0 && dy[i] == 0.0
    ensures var st := ComputeStatistics(dx, dy, nmPerPixel, sqrt, f);
      st.magnitudeMean == 0.0 && st.magnitudeStd == 0.0 && st.magnitudeMin == 0.0 &&
      st.magnitudeMax == 0.0 && st.magnitudeMedian == 0.0
    ensures ValidAngleFns(f) ==> ComputeStatistics(dx, dy, nmPerPixel, sqrt, f).angleCircularStdDeg == Some(0.0)
  {
    var m := Magnitudes(dx, dy, sqrt);
    assert forall i :: 0 <= i < |m| ==> m[i] == 0.0;
    ZeroSummaries(m, sqrt);
    if ValidAngleFns(f) {
      ZeroFieldSpread(dx, dy, sqrt, f);
    }
  }

  /** The angles of a field with no displacement all agree. */
  lemma ZeroFieldSpread(dx: seq<real>, dy: seq<real>, sqrt: real -> real, f: AngleFns)
    requires |dx| == |dy| > 0
    requires IsSqrt(sqrt) && ValidAngleFns(f)
    requires forall i :: 0 <= i < |dx| ==> dx[i] == 0.0 && dy[i] == 0.0
    ensures CircularStd(Angles(dx, dy, f), f, sqrt) == Some(0.0)
  {
    AlignedCircularStd(Angles(dx, dy, f), f, sqrt, f.atan2(0.0, 0.0));
  }

  /** Every summary of all-zero values is zero. */
  lemma ZeroSummaries(m: seq<real>, sqrt: real -> real)
    requires |m| > 0 && IsSqrt(sqrt)
    requires forall i :: 0 <= i < |m| ==> m[i] == 0.0
    ensures Mean(m) == 0.0 && Std(m, sqrt) == 0.0 && MinOf(m) == 0.0 && MaxOf(m) == 0.0 && Median(m) == 0.0
  {
    assert MinOf(m) == 0.0 && MaxOf(m) == 0.0;
    MeanOfConstant(m, 0.0);
    StdZero(m, sqrt);
  }

  /** The mean direction depends on the field only through its mean
      displacement: fields with the same mean displacement have the same
      mean direction, however their individual angles differ. */
  lemma MeanDirection(dx: seq<real>, dy: seq<real>, ex: seq<real>, ey: seq<real>,
                      nmPerPixel: Option<real>, sqrt: real -> real, f: AngleFns)
    requires |dx| == |dy| > 0 && |ex| == |ey| > 0
    requires IsSqrt(sqrt)
    requires Mean(dx) == Mean(ex) && Mean(dy) == Mean(ey)
    ensures ComputeStatistics(dx, dy, nmPerPixel, sqrt, f).angleMeanDeg ==
            ComputeStatistics(ex, ey, nmPerPixel, sqrt, f).angleMeanDeg
  {
  }

  /** The standard deviation of the magnitudes is zero exactly when all
      displacements are equally long. */
  lemma UniformMagnitudes(dx: seq<real>, dy: seq<real>, nmPerPixel: Option<real>, sqrt: real -> real, f: AngleFns)
    requires |dx| == |dy| > 0
    requires IsSqrt(sqrt)
    ensures var st := ComputeStatistics(dx, dy, nmPerPixel, sqrt, f);
      st.magnitudeStd == 0.0 <==> st.magnitudeMin == st.magnitudeMax
  {
    StdZero(Magnitudes(dx, dy, sqrt), sqrt);
  }
}

=== FILE: viz_utils.dfy ===
/** The numeric side of the visualisation helpers: the hue given to a
    displacement angle, the length and label of an automatic scale bar, the
    convex-hull mask that hides interpolation outside the detected atoms,
    and the bounding box with a margin trimmed from each edge. Drawing,
    colour maps and the HSV to RGB conversion are matplotlib's and are not
    modelled. */
module VizUtils {
  import opened Base
  import opened Reals
  import opened Geometry

  // ---------------------------------------------------------------------
  // Angle to hue
  // ---------------------------------------------------------------------

  /** `np.clip(v, lo, hi)`. */
  function Clip(v: real, lo: real, hi: real): real {
    if v < lo then lo else if v > hi then hi else v
  }

  /** The hue `angle_to_hsv_rgb` gives an angle: `(a + pi) / (2 pi)` clipped
      to [0, 1]. Within [-pi, pi] the clip is inactive and the angle can be
      read back from the hue; outside, the hue saturates at an end. */
  function Hue(a: real): (h: real)
    ensures 0.0 <= h <= 1.0
    ensures -Pi <= a <= Pi ==> h * (2.0 * Pi) == a + Pi
    ensures a <= -Pi ==> h == 0.0
    ensures a >= Pi ==> h == 1.0
  {
    var v := (a + Pi) / (2.0 * Pi);
    assert -Pi <= a <= Pi ==> 0.0 <= v <= 1.0 by {
      if -Pi <= a <= Pi {
        FractionInUnit(a + Pi, 2.0 * Pi);
      }
    }
    Clip(v, 0.0, 1.0)
  }

  /** Turning further counter-clockwise never lowers the hue. */
  lemma HueMonotone(a: real, b: real)
    requires a <= b
    ensures Hue(a) <= Hue(b)
  {
    DivideMonotone(a + Pi, b + Pi, 2.0 * Pi);
  }

  lemma DivideMonotone(x: real, y: real, d: real)
    requires x <= y && d > 0.0
    ensures x / d <= y / d
  {
  }

  /** Opposite directions sit half the colour wheel apart. */
  lemma HueOpposite(a: real)
    requires -Pi <= a <= 0.0
    ensures Hue(a + Pi) == Hue(a) + 0.5
  {
    var p := 2.0 * Pi;
    assert Hue(a + Pi) * p == Hue(a) * p + Pi;
    HalfTurn(Hue(a + Pi), Hue(a), p);
  }

  lemma HalfTurn(u: real, v: real, p: real)
    requires p > 0.0 && u * p == v * p + p / 2.0
    ensures u == v + 0.5
  {
    assert (u - v - 0.5) * p == 0.0;
  }

  /** The legend wheel of `add_angle_colorwheel` draws polar angle `theta`
      in [0, 2 pi] with the colour of `theta - pi`: the hue is the fraction
      of a full turn. */
  lemma WheelHue(theta: real)
    requires 0.0 <= theta <= 2.0 * Pi
    ensures Hue(theta - Pi) * (2.0 * Pi) == theta
  {
  }

  // ---------------------------------------------------------------------
  // Scale bar
  // ---------------------------------------------------------------------

  /** `10 ** e` for an integer exponent. */
  function Pow10(e: int): (r: real)
    ensures r > 0.0
    decreases if e >= 0 then e else -e
  {
    if e == 0 then 1.0
    else if e > 0 then 10.0 * Pow10(e - 1)
    else Pow10(e + 1) / 10.0
  }

  lemma Pow10Step(e: int)
    ensures Pow10(e + 1) == 10.0 * Pow10(e)
  {
  }

  /** `e` is `floor(log10(t))`: `t` lies in the decade `[10^e, 10^(e+1))`. */
  predicate IsDecade(e: int, t: real) {
    Pow10(e) <= t < Pow10(e + 1)
  }

  /** The round multiples tried, smallest first. */
  const NiceSteps: seq<real> := [1.0, 2.0, 5.0, 10.0]

  /** The index of the first step from `i` on whose multiple of `mag`
      reaches `goal`: the `for ... break` loop over the steps. */
  function FirstReaching(steps: seq<real>, mag: real, goal: real, i: nat): (r: Option<nat>)
    requires i <= |steps|
    ensures r.Some? ==> i <= r.value < |steps| && steps[r.value] * mag >= goal
    ensures r.Some? ==> forall j :: i <= j < r.value ==> steps[j] * mag < goal
    ensures r.None? <==> forall j :: i <= j < |steps| ==> steps[j] * mag < goal
    decreases |steps| - i
  {
    if i == |steps| then None
    else if steps[i] * mag >= goal then Some(i)
    else FirstReaching(steps, mag, goal, i + 1)
  }

  /** Scaling the unit and the goal by the same positive factor does not
      change which step is chosen. */
  lemma {:induction false} FirstReachingScales(steps: seq<real>, mag: real, goal: real, k: real, i: nat)
    requires k > 0.0 && i <= |steps|
    ensures FirstReaching(steps, k * mag, k * goal, i) == FirstReaching(steps, mag, goal, i)
    decreases |steps| - i
  {
    if i < |steps| {
      ScaleCompare(steps[i], mag, goal, k);
      FirstReachingScales(steps, mag, goal, k, i + 1);
    }
  }

  lemma ScaleCompare(s: real, mag: real, goal: real, k: real)
    requires k > 0.0
    ensures s * (k * mag) >= k * goal <==> s * mag >= goal
  {
    assert s * (k * mag) == k * (s * mag);
    if s * mag >= goal {
      MulMono(k, goal, s * mag);
    } else {
      MulMono(k, s * mag, goal);
      assert k * (s * mag) != k * goal;
    }
  }

  /** The bar length the loop picks for a target `t` in the decade
      `[mag, 10 mag)`: the first of 1, 2, 5, 10 times `mag` that reaches 80%
      of `t`, with 10 times `mag` as the fallback. It is a round length of
      at least `0.8 t` and below `2 t`. */
  function NiceLength(mag: real, t: real): (r: real)
    requires 0.0 < mag <= t < 10.0 * mag
    ensures 0.8 * t <= r < 2.0 * t
    ensures r == mag || r == 2.0 * mag || r == 5.0 * mag || r == 10.0 * mag
  {
    var k := FirstReaching(NiceSteps, mag, 0.8 * t, 0);
    ChoiceFacts(mag, t, k);
    if k.Some? then Prod(NiceSteps[k.value], mag) else 10.0 * mag
  }

  /** No round length smaller than the chosen one reaches `0.8 t`. */
  lemma NiceLengthMinimal(mag: real, t: real)
    requires 0.0 < mag <= t < 10.0 * mag
    ensures forall i :: 0 <= i < |NiceSteps| && NiceSteps[i] * mag >= 0.8 * t ==> NiceLength(mag, t) <= NiceSteps[i] * mag
  {
    ChoiceFacts(mag, t, FirstReaching(NiceSteps, mag, 0.8 * t, 0));
  }

  /** Within the decade `[mag, 10 mag)` a step is always found. */
  lemma ChoiceFound(mag: real, t: real, k: Option<nat>)
    requires 0.0 < mag <= t < 10.0 * mag
    requires k == FirstReaching(NiceSteps, mag, 0.8 * t, 0)
    ensures k.Some? && k.value < 4
  {
    assert NiceSteps[3] == 10.0;
    assert NiceSteps[3] * mag >= 0.8 * t;
  }

  /** The step found gives the smallest round length reaching `0.8 t`,
      and it is below `2 t`. */
  lemma ChoiceFacts(mag: real, t: real, k: Option<nat>)
    requires 0.0 < mag <= t < 10.0 * mag
    requires k == FirstReaching(NiceSteps, mag, 0.8 * t, 0)
    ensures k.Some? && k.value < 4
    ensures var r := NiceSteps[k.value] * mag;
      0.8 * t <= r < 2.0 * t &&
      (r == mag || r == 2.0 * mag || r == 5.0 * mag || r == 10.0 * mag) &&
      forall i :: 0 <= i < |NiceSteps| && NiceSteps[i] * mag >= 0.8 * t ==> r <= NiceSteps[i] * mag
  {
    assert NiceSteps[0] == 1.0 && NiceSteps[1] == 2.0 && NiceSteps[2] == 5.0 && NiceSteps[3] == 10.0;
    assert NiceSteps[3] * mag >= 0.8 * t;
    var i := k.value;
    assert i == 0 || i == 1 || i == 2 || i == 3;
  }

  /** Ten times the target and the decade give ten times the length: the
      choice does not depend on the unit. */
  lemma NiceLengthScales(mag: real, t: real)
    requires 0.0 < mag <= t < 10.0 * mag
    ensures 0.0 < 10.0 * mag <= 10.0 * t < 10.0 * (10.0 * mag)
    ensures NiceLength(10.0 * mag, 10.0 * t) == 10.0 * NiceLength(mag, t)
  {
    assert 10.0 * (0.8 * t) == 0.8 * (10.0 * t);
    FirstReachingScales(NiceSteps, mag, 0.8 * t, 10.0, 0);
    ChoiceFound(mag, t, FirstReaching(NiceSteps, mag, 0.8 * t, 0));
    ProdScales(NiceSteps[FirstReaching(NiceSteps, mag, 0.8 * t, 0).value], mag);
  }

  lemma ProdScales(a: real, m: real)
    ensures Prod(a, 10.0 * m) == 10.0 * Prod(a, m)
  {
  }

  /** The automatic length `add_scale_bar` picks for a target `t` (15% of
      the image width) whose decade is `e`, `10^e` being
      `10 ** floor(log10(t))`. */
  function AutoBarLength(t: real, e: int): (r: real)
    requires 0.0 < t && IsDecade(e, t)
    ensures 0.8 * t <= r < 2.0 * t
    ensures r == Pow10(e) || r == 2.0 * Pow10(e) || r == 5.0 * Pow10(e) || r == 10.0 * Pow10(e)
  {
    Pow10Step(e);
    NiceLength(Pow10(e), t)
  }

  /** Ten times the target, one decade up, gives ten times the bar. */
  lemma AutoBarLengthScales(t: real, e: int)
    requires 0.0 < t && IsDecade(e, t)
    ensures IsDecade(e + 1, 10.0 * t)
    ensures AutoBarLength(10.0 * t, e + 1) == 10.0 * AutoBarLength(t, e)
  {
    Pow10Step(e);
    Pow10Step(e + 1);
    NiceLengthScales(Pow10(e), t);
  }

  /** The label beneath the bar, before `.0f` rounding: nanometres from 1 nm
      up, picometres below. */
  datatype Label = Nm(value: real) | Pm(value: real)

  /** The length in nanometres a label stands for. */
  function LabelLength(l: Label): real {
    match l
    case Nm(v) => v
    case Pm(v) => v / 1000.0
  }

  /** The label for a bar of `b` nanometres: it reads back as `b`, and is in
      picometres exactly when `b < 1`. */
  function BarLabel(b: real): (l: Label)
    ensures LabelLength(l) == b
    ensures l.Pm? <==> b < 1.0
    ensures l.Pm? && 0.0 <= b ==> 0.0 <= l.value < 1000.0
  {
    if b >= 1.0 then Nm(b) else Pm(b * 1000.0)
  }

  /** A drawn scale bar: its length in nanometres and pixels, and its label. */
  datatype ScaleBar = ScaleBar(lengthNm: real, lengthPx: real, caption: Label)

  /** 15% of the image width in nanometres, the length the automatic bar
      aims at. */
  function TargetLength(nmPerPixel: real, widthPx: nat): real {
    (widthPx as real * nmPerPixel) * 0.15
  }

  /** The bar `add_scale_bar` draws: the given length, or the automatic one
      for the image width, converted to pixels. */
  function MakeScaleBar(nmPerPixel: real, widthPx: nat, lengthNm: Option<real>, e: int): (b: ScaleBar)
    requires nmPerPixel != 0.0
    requires lengthNm.None? ==> 0.0 < TargetLength(nmPerPixel, widthPx) && IsDecade(e, TargetLength(nmPerPixel, widthPx))
    ensures lengthNm.Some? ==> b.lengthNm == lengthNm.value
    ensures lengthNm.None? ==>
      var w := widthPx as real * nmPerPixel;
      0.12 * w <= b.lengthNm < 0.3 * w
    ensures lengthNm.None? ==> b.lengthNm == AutoBarLength(TargetLength(nmPerPixel, widthPx), e)
    ensures lengthNm.None? ==>
      b.lengthNm == Pow10(e) || b.lengthNm == 2.0 * Pow10(e) || b.lengthNm == 5.0 * Pow10(e) || b.lengthNm == 10.0 * Pow10(e)
    ensures LabelLength(b.caption) == b.lengthNm
  {
    ScaleBar(BarLengthNm(nmPerPixel, widthPx, lengthNm, e),
             BarLengthNm(nmPerPixel, widthPx, lengthNm, e) / nmPerPixel,
             BarLabel(BarLengthNm(nmPerPixel, widthPx, lengthNm, e)))
  }

  /** The pixel length converts back to the nanometre length at the
      image's scale. */
  lemma BarPixels(nmPerPixel: real, widthPx: nat, lengthNm: Option<real>, e: int)
    requires nmPerPixel != 0.0
    requires lengthNm.None? ==> 0.0 < TargetLength(nmPerPixel, widthPx) && IsDecade(e, TargetLength(nmPerPixel, widthPx))
    ensures MakeScaleBar(nmPerPixel, widthPx, lengthNm, e).lengthPx * nmPerPixel
         == MakeScaleBar(nmPerPixel, widthPx, lengthNm, e).lengthNm
  {
    DivTimes(BarLengthNm(nmPerPixel, widthPx, lengthNm, e), nmPerPixel);
  }

  /** The bar length in nanometres: the given one, else the automatic one. */
  function BarLengthNm(nmPerPixel: real, widthPx: nat, lengthNm: Option<real>, e: int): real
    requires lengthNm.None? ==> 0.0 < TargetLength(nmPerPixel, widthPx) && IsDecade(e, TargetLength(nmPerPixel, widthPx))
  {
    if lengthNm.Some? then lengthNm.value else AutoBarLength(TargetLength(nmPerPixel, widthPx), e)
  }

  // ---------------------------------------------------------------------
  // Convex hull mask
  // ---------------------------------------------------------------------

  /** `(x_min, x_max, y_min, y_max)`. */
  datatype Extent = Extent(xMin: real, xMax: real, yMin: real, yMax: real)

  /** `v` moved toward `c` so that its distance shrinks by the factor `s`:
      `c + s * (v - c)`. */
  function ShrinkAbout(c: Point, s: real, v: Point): Point {
    Point(c.x + s * (v.x - c.x), c.y + s * (v.y - c.y))
  }

  /** Every vertex shrunk toward the vertex centroid by the factor `s`. */
  function ShrinkBy(hull: seq<Point>, s: real): (r: seq<Point>)
    requires |hull| > 0
    ensures |r| == |hull|
    ensures forall i :: 0 <= i < |hull| ==> r[i] == ShrinkAbout(Centroid(hull), s, hull[i])
  {
    seq(|hull|, i requires 0 <= i < |hull| => ShrinkAbout(Centroid(hull), s, hull[i]))
  }

  /** The factor the margin shrinks by: `1 - margin` when the margin is
      positive, otherwise no shrink. */
  function Factor(margin: real): real {
    if margin > 0.0 then 1.0 - margin else 1.0
  }

  /** The hull after the optional shrink toward its centroid: shrunk by
      `1 - margin` for a positive margin, else unchanged. Either way the
      vertex centroid stays where it was. */
  function Shrink(hull: seq<Point>, margin: real): (r: seq<Point>)
    requires |hull| > 0
    ensures r == ShrinkBy(hull, Factor(margin))
    ensures margin <= 0.0 ==> r == hull
    ensures |r| > 0 && Centroid(r) == Centroid(hull)
  {
    ShrinkKeepsCentroid(hull, Factor(margin));
    if margin > 0.0 then ShrinkBy(hull, 1.0 - margin)
    else
      assert forall i :: 0 <= i < |hull| ==> ShrinkAbout(Centroid(hull), 1.0, hull[i]) == hull[i];
      hull
  }

  /** Shrinking toward the vertex centroid by any factor leaves the vertex
      centroid in place. */
  lemma ShrinkKeepsCentroid(hull: seq<Point>, s: real)
    requires |hull| > 0
    ensures Centroid(ShrinkBy(hull, s)) == Centroid(hull)
  {
    ShrinkXs(hull, s);
    ShrinkYs(hull, s);
    TowardKeepsMean(Xs(hull), s);
    TowardKeepsMean(Ys(hull), s);
  }

  /** The x coordinates of a shrink are the x coordinates moved toward the
      centroid's x. */
  lemma ShrinkXs(hull: seq<Point>, s: real)
    requires |hull| > 0
    ensures Xs(ShrinkBy(hull, s)) == Toward(Centroid(hull).x, s, Xs(hull))
  {
    var g := Centroid(hull);
    forall i | 0 <= i < |hull|
      ensures Xs(ShrinkBy(hull, s))[i] == Toward(g.x, s, Xs(hull))[i]
    {
      var p := ShrinkBy(hull, s)[i];
      assert p == ShrinkAbout(g, s, hull[i]);
      assert Xs(ShrinkBy(hull, s))[i] == p.x == Moved(g.x, s, hull[i].x);
    }
  }

  /** The y coordinates of a shrink are the y coordinates moved toward the
      centroid's y. */
  lemma ShrinkYs(hull: seq<Point>, s: real)
    requires |hull| > 0
    ensures Ys(ShrinkBy(hull, s)) == Toward(Centroid(hull).y, s, Ys(hull))
  {
    var g := Centroid(hull);
    forall i | 0 <= i < |hull|
      ensures Ys(ShrinkBy(hull, s))[i] == Toward(g.y, s, Ys(hull))[i]
    {
      var p := ShrinkBy(hull, s)[i];
      assert p == ShrinkAbout(g, s, hull[i]);
      assert Ys(ShrinkBy(hull, s))[i] == p.y == Moved(g.y, s, hull[i].y);
    }
  }

  /** Moving every entry toward the mean by the same factor keeps the mean. */
  lemma TowardKeepsMean(xs: seq<real>, s: real)
    requires |xs| > 0
    ensures Mean(Toward(Mean(xs), s, xs)) == Mean(xs)
  {
    SumToward(Mean(xs), s, xs);
    MeanTimesCount(xs);
    CentredAffine(Mean(xs), s, Sum(xs), |xs| as real);
  }

  /** One coordinate `x` moved toward `c` by the factor `s`. */
  function Moved(c: real, s: real, x: real): real {
    c + s * (x - c)
  }

  /** One coordinate of a shrink: every entry moved toward `c`. */
  function Toward(c: real, s: real, xs: seq<real>): (r: seq<real>)
    ensures |r| == |xs| && forall i :: 0 <= i < |xs| ==> r[i] == Moved(c, s, xs[i])
  {
    seq(|xs|, i requires 0 <= i < |xs| => Moved(c, s, xs[i]))
  }

  /** The sum of `n` entries summing to `t` after each is moved toward `c`. */
  function AffineSum(c: real, s: real, t: real, n: real): real {
    n * c + s * (t - n * c)
  }

  lemma {:induction false} SumToward(c: real, s: real, xs: seq<real>)
    ensures Sum(Toward(c, s, xs)) == AffineSum(c, s, Sum(xs), |xs| as real)
  {
    if |xs| > 0 {
      assert Toward(c, s, xs)[1..] == Toward(c, s, xs[1..]);
      SumToward(c, s, xs[1..]);
      TowardStep(c, s, xs[0], Sum(xs[1..]), (|xs| - 1) as real);
      assert (|xs| - 1) as real + 1.0 == |xs| as real;
    }
  }

  lemma TowardStep(c: real, s: real, x: real, t: real, m: real)
    ensures Moved(c, s, x) + AffineSum(c, s, t, m) == AffineSum(c, s, x + t, m + 1.0)
  {
  }

  /** When `t` is `n` times the centre, the moved entries still sum to `t`. */
  lemma CentredAffine(c: real, s: real, t: real, n: real)
    requires c * n == t
    ensures AffineSum(c, s, t, n) == t
  {
  }

  /** `hull` is what `ConvexHull(points).vertices` selects: at least three
      of the points, counter-clockwise and convex, enclosing every point,
      with some vertex strictly left of some edge, so that the polygon has
      positive area (collinear points make `ConvexHull` raise). */
  ghost predicate IsHullOf(hull: seq<Point>, points: seq<Point>) {
    |hull| >= 3 && Convex(hull) &&
    (exists i, j :: 0 <= i < |hull| && 0 <= j < |hull| && Cross(hull[i], hull[Next(i, |hull|)], hull[j]) > 0.0) &&
    (forall i :: 0 <= i < |hull| ==> hull[i] in points) &&
    (forall j :: 0 <= j < |points| ==> InConvexPolygon(hull, points[j]))
  }

  /** The boolean grid `np.ones(grid_shape, dtype=bool)`. */
  function AllTrue(rows: nat, cols: nat): (m: seq<seq<bool>>)
    ensures |m| == rows && forall r :: 0 <= r < rows ==> |m[r]| == cols && forall c :: 0 <= c < cols ==> m[r][c]
  {
    seq(rows, r => seq(cols, c => true))
  }

  /** `create_convex_hull_mask`. `hull` is the outcome of `ConvexHull`:
      `None` when it raises. Fewer than four points, or no hull, give an
      all-true mask; otherwise cell `(r, c)` is true exactly when the grid
      point `(xs[c], ys[r])` of the `linspace` grid lies in the closed
      shrunk hull. */
  function ConvexHullMask(points: seq<Point>, hull: Option<seq<Point>>, rows: nat, cols: nat,
                          extent: Extent, margin: real): (m: seq<seq<bool>>)
    requires |points| >= 4 && hull.Some? ==> IsHullOf(hull.value, points)
    ensures |m| == rows && forall r :: 0 <= r < rows ==> |m[r]| == cols
    ensures |points| < 4 || hull.None? ==> forall r, c :: 0 <= r < rows && 0 <= c < cols ==> m[r][c]
    ensures |points| >= 4 && hull.Some? ==>
      var xs, ys := Linspace(extent.xMin, extent.xMax, cols), Linspace(extent.yMin, extent.yMax, rows);
      forall r, c :: 0 <= r < rows && 0 <= c < cols ==>
        (m[r][c] <==> InConvexPolygon(ShrinkBy(hull.value, Factor(margin)), Point(xs[c], ys[r])))
  {
    if |points| < 4 || hull.None? then AllTrue(rows, cols)
    else
      var shrunk := Shrink(hull.value, margin);
      var xs, ys := Linspace(extent.xMin, extent.xMax, cols), Linspace(extent.yMin, extent.yMax, rows);
      seq(rows, r requires 0 <= r < rows =>
        seq(cols, c requires 0 <= c < cols => InConvexPolygon(shrunk, Point(xs[c], ys[r]))))
  }

  /** The cross product against a shrunk edge splits into a part linear
      and a part quadratic in the factor: with `c` the centre,
      `Cross(a', b', p) == s * E + s * s * Cross(a, b, c)` where `E` is the
      cross product of the edge direction with `p - c`. */
  lemma CrossShrink(c: Point, s: real, a: Point, b: Point, p: Point)
    ensures Cross(ShrinkAbout(c, s, a), ShrinkAbout(c, s, b), p)
         == s * EdgeTerm(c, a, b, p) + s * (s * Cross(a, b, c))
  {
    ShrunkCross(c, s, a, b, p);
    ShrunkExpand(c, s, a, b, p);
  }

  lemma ShrunkExpand(c: Point, s: real, a: Point, b: Point, p: Point)
    ensures ShrunkForm(s, a.x, a.y, b.x, b.y, c.x, c.y, p.x, p.y) == s * EdgeTerm(c, a, b, p) + s * (s * Cross(a, b, c))
  {
    ShrunkFormExpand(s, a.x, a.y, b.x, b.y, c.x, c.y, p.x, p.y, EdgeTerm(c, a, b, p), Cross(a, b, c));
  }

  /** The cross product of a shrunk edge with `p`, in coordinates. */
  function ShrunkForm(s: real, xa: real, ya: real, xb: real, yb: real, xc: real, yc: real, xp: real, yp: real): real {
    (s * (xb - xa)) * ((yp - yc) - s * (ya - yc)) - (s * (yb - ya)) * ((xp - xc) - s * (xa - xc))
  }

  lemma ShrunkCross(c: Point, s: real, a: Point, b: Point, p: Point)
    ensures Cross(ShrinkAbout(c, s, a), ShrinkAbout(c, s, b), p) == ShrunkForm(s, a.x, a.y, b.x, b.y, c.x, c.y, p.x, p.y)
  {
    var a2, b2 := ShrinkAbout(c, s, a), ShrinkAbout(c, s, b);
    MulCongruence(b2.x - a2.x, p.y - a2.y, s * (b.x - a.x), (p.y - c.y) - s * (a.y - c.y));
    MulCongruence(b2.y - a2.y, p.x - a2.x, s * (b.y - a.y), (p.x - c.x) - s * (a.x - c.x));
  }

  /** `ShrunkForm` expanded in powers of `s`: the edge term `e` and the
      centre's cross product `k` are given by their coordinates. */
  lemma ShrunkFormExpand(s: real, xa: real, ya: real, xb: real, yb: real, xc: real, yc: real, xp: real, yp: real,
                         e: real, k: real)
    requires e == (xb - xa) * (yp - yc) - (yb - ya) * (xp - xc)
    requires k == (xb - xa) * (yc - ya) - (yb - ya) * (xc - xa)
    ensures ShrunkForm(s, xa, ya, xb, yb, xc, yc, xp, yp) == s * e + s * (s * k)
  {
  }

  /** The cross product of the edge direction `b - a` with `p - c`. */
  function EdgeTerm(c: Point, a: Point, b: Point, p: Point): real {
    (b.x - a.x) * (p.y - c.y) - (b.y - a.y) * (p.x - c.x)
  }

  /** A point inside the hull shrunk by `s1` is inside the hull shrunk by
      any larger factor `s2`, up to `s2 = 1`, the hull itself: the shrunk
      hulls are nested. */
  lemma ShrinkNested(hull: seq<Point>, s1: real, s2: real, p: Point)
    requires |hull| >= 3 && Convex(hull)
    requires 0.0 < s1 <= s2
    requires InConvexPolygon(ShrinkBy(hull, s1), p)
    ensures InConvexPolygon(ShrinkBy(hull, s2), p)
  {
    var c := Centroid(hull);
    CentroidInside(hull);
    var h1, h2 := ShrinkBy(hull, s1), ShrinkBy(hull, s2);
    forall i | 0 <= i < |hull|
      ensures Cross(h2[i], h2[Next(i, |hull|)], p) >= 0.0
    {
      assert Cross(h1[i], h1[Next(i, |hull|)], p) >= 0.0;
      EdgeNested(c, s1, s2, hull[i], hull[Next(i, |hull|)], p);
    }
  }

  /** One edge of the nesting: if `p` is left of edge `a b` shrunk by `s1`,
      it is left of the same edge shrunk by `s2 >= s1`, provided the centre
      is left of the edge. */
  lemma EdgeNested(c: Point, s1: real, s2: real, a: Point, b: Point, p: Point)
    requires 0.0 < s1 <= s2 && Cross(a, b, c) >= 0.0
    requires Cross(ShrinkAbout(c, s1, a), ShrinkAbout(c, s1, b), p) >= 0.0
    ensures Cross(ShrinkAbout(c, s2, a), ShrinkAbout(c, s2, b), p) >= 0.0
  {
    CrossShrink(c, s1, a, b, p);
    CrossShrink(c, s2, a, b, p);
    NestedStep(s1, s2, EdgeTerm(c, a, b, p), Cross(a, b, c));
  }

  /** `s1 * e + s1 * s1 * g >= 0` with `g >= 0` carries over to `s2 >= s1`. */
  lemma NestedStep(s1: real, s2: real, e: real, g: real)
    requires 0.0 < s1 <= s2 && 0.0 <= g
    requires s1 * e + s1 * (s1 * g) >= 0.0
    ensures s2 * e + s2 * (s2 * g) >= 0.0
  {
    assert s1 * (e + s1 * g) >= 0.0;
    assert e + s1 * g >= 0.0;
    assert e + s2 * g >= e + s1 * g by {
      MulMono(g, s1, s2);
    }
    MulMono(s2, 0.0, e + s2 * g);
  }

  /** Below a margin of 1, a larger margin masks out more: every cell kept
      at margin `m1` is kept at any smaller margin `m2`. */
  lemma MaskNested(points: seq<Point>, hull: Option<seq<Point>>, rows: nat, cols: nat,
                   extent: Extent, m1: real, m2: real, r: nat, c: nat)
    requires |points| >= 4 && hull.Some? ==> IsHullOf(hull.value, points)
    requires m2 <= m1 < 1.0
    requires r < rows && c < cols
    requires ConvexHullMask(points, hull, rows, cols, extent, m1)[r][c]
    ensures ConvexHullMask(points, hull, rows, cols, extent, m2)[r][c]
  {
    if |points| >= 4 && hull.Some? {
      var xs, ys := Linspace(extent.xMin, extent.xMax, cols), Linspace(extent.yMin, extent.yMax, rows);
      ShrinkNested(hull.value, Factor(m1), Factor(m2), Point(xs[c], ys[r]));
    }
  }

  /** A margin of 1 shrinks the hull to its centroid, where every cross
      product vanishes: the whole grid is kept, which is also what the
      failing Delaunay triangulation of that degenerate hull falls back to. */
  lemma FullShrinkIsPermissive(points: seq<Point>, hull: Option<seq<Point>>, rows: nat, cols: nat,
                               extent: Extent, r: nat, c: nat)
    requires |points| >= 4 && hull.Some? ==> IsHullOf(hull.value, points)
    requires r < rows && c < cols
    ensures ConvexHullMask(points, hull, rows, cols, extent, 1.0)[r][c]
  {
    if |points| >= 4 && hull.Some? {
      var h := hull.value;
      var xs, ys := Linspace(extent.xMin, extent.xMax, cols), Linspace(extent.yMin, extent.yMax, rows);
      ShrunkToPointHoldsAll(h, Point(xs[c], ys[r]));
    }
  }

  /** A hull shrunk by the factor 0 holds every point: all its vertices
      coincide, so every cross product vanishes. */
  lemma ShrunkToPointHoldsAll(h: seq<Point>, p: Point)
    requires |h| > 0
    ensures InConvexPolygon(ShrinkBy(h, 0.0), p)
  {
    forall i | 0 <= i < |h|
      ensures Cross(ShrinkBy(h, 0.0)[i], ShrinkBy(h, 0.0)[Next(i, |h|)], p) >= 0.0
    {
      CrossShrink(Centroid(h), 0.0, h[i], h[Next(i, |h|)], p);
    }
  }

  /** A grid point at the hull's centroid is kept whatever the margin. */
  lemma CentroidKept(points: seq<Point>, hull: Option<seq<Point>>, rows: nat, cols: nat,
                     extent: Extent, margin: real, r: nat, c: nat)
    requires |points| >= 4 && hull.Some? ==> IsHullOf(hull.value, points)
    requires r < rows && c < cols
    requires |points| >= 4 && hull.Some? ==>
      Point(Linspace(extent.xMin, extent.xMax, cols)[c], Linspace(extent.yMin, extent.yMax, rows)[r]) == Centroid(hull.value)
    ensures ConvexHullMask(points, hull, rows, cols, extent, margin)[r][c]
  {
    if |points| >= 4 && hull.Some? {
      var h := hull.value;
      var s := Factor(margin);
      var g := Centroid(h);
      CentroidInside(h);
      forall i | 0 <= i < |h|
        ensures Cross(ShrinkBy(h, s)[i], ShrinkBy(h, s)[Next(i, |h|)], g) >= 0.0
      {
        EdgeKeepsCentre(g, s, h[i], h[Next(i, |h|)]);
      }
    }
  }

  /** An edge with the centre on its left keeps it there after shrinking
      toward it by any factor. */
  lemma EdgeKeepsCentre(c: Point, s: real, a: Point, b: Point)
    requires Cross(a, b, c) >= 0.0
    ensures Cross(ShrinkAbout(c, s, a), ShrinkAbout(c, s, b), c) >= 0.0
  {
    CrossShrink(c, s, a, b, c);
    SquareTimes(s, Cross(a, b, c));
  }

  lemma SquareTimes(s: real, g: real)
    requires 0.0 <= g
    ensures 0.0 <= s * (s * g)
  {
    assert s * (s * g) == (s * s) * g;
    if s != 0.0 {
      assert s * s > 0.0 by {
        if s < 0.0 {
          MulPos(-s, -s);
        } else {
          MulPos(s, s);
        }
      }
      MulMono(s * s, 0.0, g);
    }
  }

  /** Without a margin, a grid point that coincides with a data point is
      kept: the hull encloses the data. */
  lemma DataPointsKept(points: seq<Point>, hull: Option<seq<Point>>, rows: nat, cols: nat,
                       extent: Extent, margin: real, r: nat, c: nat, j: nat)
    requires |points| >= 4 && hull.Some? ==> IsHullOf(hull.value, points)
    requires margin <= 0.0
    requires r < rows && c < cols && j < |points|
    requires points[j] == Point(Linspace(extent.xMin, extent.xMax, cols)[c], Linspace(extent.yMin, extent.yMax, rows)[r])
    ensures ConvexHullMask(points, hull, rows, cols, extent, margin)[r][c]
  {
    if |points| >= 4 && hull.Some? {
      assert Shrink(hull.value, margin) == hull.value;
    }
  }

  // ---------------------------------------------------------------------
  // Valid data bounds
  // ---------------------------------------------------------------------

  /** `lo + (hi - lo) * m`, the low end of a range trimmed by the fraction
      `m` of its length. */
  function TrimLo(lo: real, hi: real, m: real): real {
    lo + (hi - lo) * m
  }

  /** `hi - (hi - lo) * m`, the high end of the trimmed range. */
  function TrimHi(lo: real, hi: real, m: real): real {
    hi - (hi - lo) * m
  }

  /** Trimming keeps the midpoint and scales the length by `1 - 2 m`;
      trimming nothing keeps the range. */
  lemma TrimShape(lo: real, hi: real, m: real)
    ensures TrimLo(lo, hi, m) + TrimHi(lo, hi, m) == lo + hi
    ensures TrimHi(lo, hi, m) - TrimLo(lo, hi, m) == Prod(1.0 - 2.0 * m, hi - lo)
    ensures m == 0.0 ==> TrimLo(lo, hi, m) == lo && TrimHi(lo, hi, m) == hi
  {
  }

  /** Up to `m = 0.5` the trimmed ends stay in order. */
  lemma TrimOrdered(lo: real, hi: real, m: real)
    ensures lo <= hi && m <= 0.5 ==> TrimLo(lo, hi, m) <= TrimHi(lo, hi, m)
  {
    if lo <= hi && m <= 0.5 {
      MulMono(hi - lo, m, 0.5);
    }
  }

  /** More trimming moves both ends inward. */
  lemma TrimNested(lo: real, hi: real, m1: real, m2: real)
    requires lo <= hi && m1 <= m2
    ensures TrimLo(lo, hi, m1) <= TrimLo(lo, hi, m2) && TrimHi(lo, hi, m2) <= TrimHi(lo, hi, m1)
  {
    MulMono(hi - lo, m1, m2);
  }

  /** `get_valid_data_bounds`: the bounding box of the points with
      `margin` times its width and height removed from each side. The box
      keeps its centre (each side shrinks to `1 - 2 margin` of the range,
      see `TrimShape`); with no margin it is the tightest box holding every
      point. */
  function ValidDataBounds(points: seq<Point>, margin: real): (b: Extent)
    requires |points| > 0
    ensures b.xMin + b.xMax == MinOf(Xs(points)) + MaxOf(Xs(points))
    ensures b.yMin + b.yMax == MinOf(Ys(points)) + MaxOf(Ys(points))
    ensures b.xMax - b.xMin == Prod(1.0 - 2.0 * margin, MaxOf(Xs(points)) - MinOf(Xs(points)))
    ensures b.yMax - b.yMin == Prod(1.0 - 2.0 * margin, MaxOf(Ys(points)) - MinOf(Ys(points)))
    ensures margin == 0.0 ==> TightBox(points, b)
    ensures margin <= 0.5 ==> b.xMin <= b.xMax && b.yMin <= b.yMax
  {
    MinAtMostMax(Xs(points));
    MinAtMostMax(Ys(points));
    if margin == 0.0 then
      BoundingBoxTight(points);
      TrimBox(MinOf(Xs(points)), MaxOf(Xs(points)), MinOf(Ys(points)), MaxOf(Ys(points)), margin)
    else
      TrimBox(MinOf(Xs(points)), MaxOf(Xs(points)), MinOf(Ys(points)), MaxOf(Ys(points)), margin)
  }

  /** The box `[xlo, xhi] x [ylo, yhi]` with the fraction `m` of its width
      and height removed from each side. */
  function TrimBox(xlo: real, xhi: real, ylo: real, yhi: real, m: real): (b: Extent)
    ensures b.xMin + b.xMax == xlo + xhi && b.yMin + b.yMax == ylo + yhi
    ensures b.xMax - b.xMin == Prod(1.0 - 2.0 * m, xhi - xlo)
    ensures b.yMax - b.yMin == Prod(1.0 - 2.0 * m, yhi - ylo)
    ensures m == 0.0 ==> b == Extent(xlo, xhi, ylo, yhi)
    ensures xlo <= xhi && ylo <= yhi && m <= 0.5 ==> b.xMin <= b.xMax && b.yMin <= b.yMax
  {
    TrimShape(xlo, xhi, m);
    TrimShape(ylo, yhi, m);
    TrimOrdered(xlo, xhi, m);
    TrimOrdered(ylo, yhi, m);
    Extent(TrimLo(xlo, xhi, m), TrimHi(xlo, xhi, m), TrimLo(ylo, yhi, m), TrimHi(ylo, yhi, m))
  }

  /** `b` is the smallest box holding every point: each point lies inside,
      and each side touches a point. */
  predicate TightBox(points: seq<Point>, b: Extent) {
    (forall j :: 0 <= j < |points| ==> b.xMin <= points[j].x <= b.xMax && b.yMin <= points[j].y <= b.yMax) &&
    (exists j :: 0 <= j < |points| && points[j].x == b.xMin) &&
    (exists j :: 0 <= j < |points| && points[j].x == b.xMax) &&
    (exists j :: 0 <= j < |points| && points[j].y == b.yMin) &&
    (exists j :: 0 <= j < |points| && points[j].y == b.yMax)
  }

  lemma BoundingBoxTight(points: seq<Point>)
    requires |points| > 0
    ensures TightBox(points, Extent(MinOf(Xs(points)), MaxOf(Xs(points)), MinOf(Ys(points)), MaxOf(Ys(points))))
  {
    var xs, ys := Xs(points), Ys(points);
    var a :| 0 <= a < |xs| && xs[a] == MinOf(xs);
    var b :| 0 <= b < |xs| && xs[b] == MaxOf(xs);
    var c :| 0 <= c < |ys| && ys[c] == MinOf(ys);
    var d :| 0 <= d < |ys| && ys[d] == MaxOf(ys);
  }

  /** A larger margin gives a box inside the smaller margin's box. */
  lemma BoundsNested(points: seq<Point>, m1: real, m2: real)
    requires |points| > 0 && m1 <= m2
    ensures var b1, b2 := ValidDataBounds(points, m1), ValidDataBounds(points, m2);
      b1.xMin <= b2.xMin && b2.xMax <= b1.xMax && b1.yMin <= b2.yMin && b2.yMax <= b1.yMax
  {
    var xs, ys := Xs(points), Ys(points);
    assert MinOf(xs) <= xs[0] <= MaxOf(xs) && MinOf(ys) <= ys[0] <= MaxOf(ys);
    TrimNested(MinOf(xs), MaxOf(xs), m1, m2);
    TrimNested(MinOf(ys), MaxOf(ys), m1, m2);
  }
}
